=== FILE: README.md ===
# robotutils planning core in Dafny

This project models the discrete planning and grid utilities of the Java
`robotutils` library:

- the array-backed binary min-heap `PriorityQueue` (trunk);
- the N-dimensional dense occupancy grid `StaticMap`;
- the lattice A* `GridAStar` with its `Coords` tuple, and the lattice graph
  adapter `GridGraph`;
- the coordinate value class `IntCoord`;
- the tree growth of the bidirectional RRT planner `BiRRT`;
- the one-shot A* `search` over an abstract graph.

Java objects become immutable values. Mutating methods return the new state.
Exceptions become a `Result` whose `Failure` names the Java exception (module
`Wrappers`). A null result becomes `Option.None`. Arguments are non-null values, except
the `that` of `Coords.compareTo` and `Coords.mdist`, whose null case is
modelled by `GridAStar.CompareToArg` and `GridAStar.MdistArg`. Java `double` becomes
`Doubles.Dbl`: an exact real plus positive infinity, negative infinity and NaN.
The narrowing cast `(int)` follows section 5.1.3 of the Java Language
Specification. Java `int` arithmetic wraps explicitly (`Doubles.Wrap`) where a
stated property depends on the wrap: the two `hashCode`s and
`Coords.compareTo`. The other int sums use unbounded integers (see "## Left
out").

The abstract parts of the Java classes are parameters of the model:

- `GridMap`: the number of dimensions, the extent of each dimension, and a
  byte per cell (`Lattice.GridMap`).
- BiRRT's `distance`, `newState` and `randomState`. Round k's random sample is
  `randomState(k)`.
- A*'s graph, heuristic and edge metric.

## Model

| member | source | states |
|---|---|---|
| PriorityQueue.Put | trunk/src/robotutils/planning/PriorityQueue.java:78-89 | size grows by one; the element multiset gains exactly x (no duplicate check); a heap stays a heap after the sift-up |
| PriorityQueue.SiftUp | trunk/src/robotutils/planning/PriorityQueue.java:83-88 | moving the hole up while the parent is strictly greater than x keeps the length, puts x into the multiset in place of the hole, and yields a heap when the hole was the only defect |
| PriorityQueue.GetMin | trunk/src/robotutils/planning/PriorityQueue.java:95-97 | null exactly when empty; otherwise the element in slot 0, and on a heap one no greater than any element |
| PriorityQueue.RootIsMinimum | trunk/src/robotutils/planning/PriorityQueue.java:95-97 | in a heap, slot 0 is no greater than any slot |
| PriorityQueue.DeleteMin | trunk/src/robotutils/planning/PriorityQueue.java:103-109 | returns what getMin returns, the old slot 0 on a non-empty queue; an empty queue is left unchanged; otherwise size drops by one and exactly one copy of the old slot 0 leaves the multiset; heap order is kept |
| PriorityQueue.IndexOf | trunk/src/robotutils/planning/PriorityQueue.java:118 | -1 exactly when x is absent; otherwise the first slot holding x |
| PriorityQueue.IndexFrom | trunk/src/robotutils/planning/PriorityQueue.java:118 | scanning from a slot on gives -1 exactly when x occurs in no later slot, and otherwise the first later slot holding x |
| PriorityQueue.Delete | trunk/src/robotutils/planning/PriorityQueue.java:117-125 | returns true exactly when x is present; an absent x changes nothing; otherwise exactly one occurrence of x leaves and size drops by one |
| PriorityQueue.Clear | trunk/src/robotutils/planning/PriorityQueue.java:130-132 | the queue becomes empty and getMin answers null |
| PriorityQueue.RebuildFrom | trunk/src/robotutils/planning/PriorityQueue.java:167-170 | running heapify from slot i down to 0 keeps the multiset; when every slot above i already heads a heap, the result is a heap |
| PriorityQueue.Update | trunk/src/robotutils/planning/PriorityQueue.java:167-170 | after update the whole vector is in heap order with the same multiset, whatever the starting order |
| PriorityQueue.DeleteElement | trunk/src/robotutils/planning/PriorityQueue.java:172-178 | the last element moves into slot i and is sifted down; size drops by one, exactly one copy of q[i] leaves, slots outside i's subtree are untouched, and only the subtree at i is guaranteed ordered |
| PriorityQueue.MoveLastInto | trunk/src/robotutils/planning/PriorityQueue.java:173-176 | the vacated slot receives the last element and the vector shrinks by one; every other slot is unchanged |
| PriorityQueue.Smallest | trunk/src/robotutils/planning/PriorityQueue.java:186-199 | the chosen slot is i or one of its children, and holds a value no greater than i and both children |
| PriorityQueue.Heapify | trunk/src/robotutils/planning/PriorityQueue.java:183-208 | sift-down keeps the length and the multiset, changes no slot outside i's subtree, puts the least of i and its children at i, and when every edge leaving a slot after i is ordered, every edge leaving i or a later slot is ordered |
| PriorityQueue.HeapifyFrame | trunk/src/robotutils/planning/PriorityQueue.java:183-208 | what sift-down leaves in i's subtree depends only on what that subtree held |
| PriorityQueue.HeapifyRestoresSubtree | trunk/src/robotutils/planning/PriorityQueue.java:180-208 | when the subtrees of i's children are heaps, sift-down makes the subtree at i a heap, whatever the rest of the vector holds |
| PriorityQueue.Swap | trunk/src/robotutils/planning/PriorityQueue.java:213-217 | exchanges exactly slots i and j; nothing else changes |
| PriorityQueue.DeleteBreaksHeapOrder | trunk/src/robotutils/planning/PriorityQueue.java:117-125 | deleting 6 from the heap [0,5,1,6,7,2] gives [0,5,1,2,7], which is not a heap |
| PriorityQueue.DeleteElementFixed | trunk/src/robotutils/planning/PriorityQueue.java:172-178 | with a sift-up when the moved element is below its new parent, deletion at any slot keeps the whole heap ordered |
| PriorityQueue.DeleteFixed | trunk/src/robotutils/planning/PriorityQueue.java:117-125 | delete by value built on the corrected deletion removes one occurrence and keeps heap order |
| PriorityQueue.DeleteFixedKeepsHeapOrder | trunk/src/robotutils/planning/PriorityQueue.java:117-125 | the corrected delete of 6 from [0,5,1,6,7,2] gives the heap [0,2,1,5,7] |
| PriorityQueue.PutAll | test/robotutils/util/PriorityQueueTest.java:55-63 | inserting a list one by one yields a heap holding exactly the list's elements |
| PriorityQueue.Drain | test/robotutils/util/PriorityQueueTest.java:65-67 | repeated deleteMin yields every element of the queue, in ascending order when the queue is a heap |
| PriorityQueue.SortedUnique | test/robotutils/util/PriorityQueueTest.java:65-67 | two ascending lists with the same multiset are equal |
| PriorityQueue.PutAllThenDrainIsAscending | test/robotutils/util/PriorityQueueTest.java:55-67 | inserting any permutation of 0..n-1 and then draining gives 0..n-1 in order |
| StaticMap.Strides | src/robotutils/filters/occupancy/StaticMap.java:43-48 | cumDims[i] is the product of the first i dimensions |
| StaticMap.Resize | src/robotutils/filters/occupancy/StaticMap.java:41-51 | an empty dims array throws index-out-of-bounds, a negative product throws negative-array-size; otherwise dims is kept, cumDims holds the prefix products plus a trailing unwritten 0, and the zeroed backing array has the product of all dims as its length |
| StaticMap.Index | src/robotutils/filters/occupancy/StaticMap.java:53-64 | a coordinate list too short for the map throws; any coordinate below 0 or at or beyond its dimension gives -1; otherwise the stride-weighted sum, which lies inside the backing array |
| StaticMap.IndexFrom | src/robotutils/filters/occupancy/StaticMap.java:55-63 | the loop from dimension i with running sum acc gives the same three outcomes as index |
| StaticMap.OffsetBounds | src/robotutils/filters/occupancy/StaticMap.java:55-63 | the linear offset of in-range coordinates lies in [0, product of dims) |
| StaticMap.OffsetInjective | src/robotutils/filters/occupancy/StaticMap.java:55-63 | distinct in-range coordinates have distinct linear offsets |
| StaticMap.Get | src/robotutils/filters/occupancy/StaticMap.java:66-69 | an out-of-range coordinate reads 0; an in-range one reads the cell at its offset; a too-short coordinate list throws |
| StaticMap.Set | src/robotutils/filters/occupancy/StaticMap.java:71-75 | an out-of-range coordinate leaves the map unchanged; dims and strides never change |
| StaticMap.Size | src/robotutils/filters/occupancy/StaticMap.java:77-79 | succeeds exactly for a dimension index in range, and throws otherwise |
| StaticMap.GetAfterSet | src/robotutils/filters/occupancy/StaticMap.java:66-75 | get after set at an in-range coordinate returns the value stored |
| StaticMap.SetLeavesOtherCells | src/robotutils/filters/occupancy/StaticMap.java:66-75 | set changes no other in-range cell |
| StaticMap.SizeAfterResize | src/robotutils/filters/occupancy/StaticMap.java:41-51 | after resize(dims), size(d) returns dims[d] |
| StaticMap.ResizeExample | trunk/test/robotutils/filters/occupancy/StaticMapTest.java:44-62 | resize to 100x400x200 gives strides 1, 100, 40000 (plus the unwritten trailing slot) and 8,000,000 cells |
| IntCoord.Get | trunk/src/robotutils/data/IntCoord.java:45-47 | fails with index-out-of-bounds exactly outside 0..dims-1; otherwise the coordinate, exactly, as a double |
| IntCoord.EqualsIsEquivalence | trunk/src/robotutils/data/IntCoord.java:58-66 | equals holds exactly for equal coordinate lists, and is reflexive, symmetric and transitive |
| IntCoord.HashCode | trunk/src/robotutils/data/IntCoord.java:68-73 | the hash is a Java int |
| IntCoord.EqualsAgreesWithHashCode | trunk/src/robotutils/data/IntCoord.java:58-73 | equal coordinates have equal hash codes |
| IntCoord.HashCodeExamples | trunk/src/robotutils/data/IntCoord.java:68-73 | the hash of () is 470 and of (1,2) is 1463 |
| Lattice.SameInts | trunk/src/robotutils/data/IntCoord.java:62 | the element-wise array comparison holds exactly when the two arrays are equal |
| Lattice.ArraysHash | trunk/src/robotutils/data/IntCoord.java:71 | the array hash is a Java int |
| Lattice.Move | trunk/src/robotutils/planning/GridAStar.java:152-159 | a neighbour differs from the cell only in dimension i, by delta |
| Lattice.MoveIsUnitApart | trunk/src/robotutils/planning/GridAStar.java:152-159 | a unit move along one dimension is at Manhattan distance 1 |
| Lattice.ManhattanSymmetric | trunk/src/robotutils/planning/GridAStar.java:89-100 | the distance is the same in both directions |
| Lattice.ManhattanZeroIffEqual | trunk/src/robotutils/planning/GridAStar.java:89-100 | the distance is zero exactly for equal coordinates |
| Lattice.ManhattanTriangle | trunk/src/robotutils/planning/GridAStar.java:89-100 | the distance obeys the triangle inequality |
| Lattice.ManhattanOneIffUnitApart | src/robotutils/data/GridGraph.java:95-104 | distance 1 holds exactly when the coordinates differ in one dimension by one |
| Doubles.Wrap | trunk/src/robotutils/data/IntCoord.java:68-73 | int arithmetic results lie in the int range, agree with the exact result modulo 2^32, and equal it when it fits |
| Doubles.ToInt | src/robotutils/planning/AStar.java:67 | the (int) cast of section 5.1.3 of the Java Language Specification: NaN gives 0; a finite value inside the int range truncates toward zero (the int at most one unit nearer zero); finite values and infinities beyond the range saturate at IntMax or IntMin |
| Doubles.Add | src/robotutils/planning/AStar.java:123-146 | double addition: exact on two finite values; NaN when either operand is NaN or the two are opposite infinities; otherwise an infinite operand, on either side, gives that infinity |
| Doubles.Compare | src/robotutils/planning/AStar.java:63-68 | the corrected comparator's Double.compare: -1, 0 or 1, negative exactly when numerically less, and NaN above every other value |
| Doubles.CompareIsTotalOrder | src/robotutils/planning/AStar.java:63-68 | Double.compare is antisymmetric, zero exactly on equal values, and transitive |
| Doubles.LessTransitive | src/robotutils/planning/BiRRT.java:132 | the numeric < is transitive |
| Doubles.LessTotal | src/robotutils/planning/BiRRT.java:132 | any two non-NaN doubles are ordered by < or equal |
| GridAStar.FirstDiff | trunk/src/robotutils/planning/GridAStar.java:59-63 | the scan stops at the first index where the arrays differ, or at the end |
| GridAStar.FirstDiffUnique | trunk/src/robotutils/planning/GridAStar.java:59-63 | any index before which the arrays agree and at which they differ is that first index |
| GridAStar.CompareTo | trunk/src/robotutils/planning/GridAStar.java:54-66 | mismatched lengths throw IllegalArgumentException; the result is a Java int; on int inputs it is zero exactly for equal tuples |
| GridAStar.CompareToAgreesWithoutOverflow | trunk/src/robotutils/planning/GridAStar.java:54-66 | when no coordinate difference overflows, compareTo has the sign of the reversed lexicographic order |
| GridAStar.CompareToOverflowBreaksAntisymmetry | trunk/src/robotutils/planning/GridAStar.java:61 | (MIN_VALUE) and (0) each compare below the other |
| GridAStar.CompareToFixed | trunk/src/robotutils/planning/GridAStar.java:54-66 | the overflow-free comparison answers -1, 0 or 1 and is zero exactly for equal tuples |
| GridAStar.CompareToFixedAntisymmetric | trunk/src/robotutils/planning/GridAStar.java:54-66 | swapping the operands negates the result |
| GridAStar.CompareToFixedTransitive | trunk/src/robotutils/planning/GridAStar.java:54-66 | the order is transitive |
| GridAStar.EqualsAgreesWithCompareTo | trunk/src/robotutils/planning/GridAStar.java:75-82 | equals holds exactly when the comparison is zero (for compareTo as written, on int inputs) |
| GridAStar.HashCode | trunk/src/robotutils/planning/GridAStar.java:68-73 | the hash is a Java int |
| GridAStar.EqualsAgreesWithHashCode | trunk/src/robotutils/planning/GridAStar.java:68-82 | equal tuples have equal hash codes |
| GridAStar.CompareToArg | trunk/src/robotutils/planning/GridAStar.java:54-57 | a null or different-length argument throws IllegalArgumentException; a non-null one compares as compareTo |
| GridAStar.MdistArg | trunk/src/robotutils/planning/GridAStar.java:89-92 | a null or different-length argument throws IllegalArgumentException; a non-null one gives mdist |
| GridAStar.Mdist | trunk/src/robotutils/planning/GridAStar.java:89-100 | mismatched lengths throw; otherwise non-negative and zero exactly for equal tuples |
| GridAStar.MdistSumsDifferences | trunk/src/robotutils/planning/GridAStar.java:93-99 | the distance is the sum of the absolute coordinate differences: 0 for empty tuples, and the leading difference plus the distance of the rest |
| GridAStar.MdistIsMetric | trunk/src/robotutils/planning/GridAStar.java:89-100 | the distance is symmetric and obeys the triangle inequality |
| GridAStar.NbrsFrom | trunk/src/robotutils/planning/GridAStar.java:150-163 | from dimension i on, each +1 and -1 neighbour is listed exactly when its cell value is non-negative; every listed cell is at distance 1; at most two per dimension |
| GridAStar.DimNbrs | trunk/src/robotutils/planning/GridAStar.java:152-159 | the cells kept for one dimension sit in that dimension's two slots, the +1 step before the -1 step |
| GridAStar.NbrsFromAscending | trunk/src/robotutils/planning/GridAStar.java:150-163 | the list from dimension i on is in strictly increasing slot order from slot 2i: dimension by dimension, +1 before -1 |
| GridAStar.NbrsInVisitOrder | trunk/src/robotutils/planning/GridAStar.java:148-166 | nbrs lists no cell twice, and lists them in the order the loop visits them |
| GridAStar.Nbrs | trunk/src/robotutils/planning/GridAStar.java:148-166 | a tuple with fewer coordinates than the map's dimensions throws; otherwise at most 2·dims neighbours, each at distance 1 with a non-negative cell, and every such cardinal neighbour is listed |
| GridAStar.H | trunk/src/robotutils/planning/GridAStar.java:173-176 | the heuristic is mdist widened to double; non-negative and zero exactly at the goal |
| GridAStar.C | trunk/src/robotutils/planning/GridAStar.java:178-188 | the cost is infinite exactly when the cells are not at distance 1; otherwise it is one plus the mean of the two cell values |
| GridAStar.SuccCostAtLeastOne | trunk/src/robotutils/planning/GridAStar.java:168-188 | a step to a successor from a non-negative cell costs at least 1 |
| GridAStar.HeuristicConsistent | trunk/src/robotutils/planning/GridAStar.java:173-188 | the heuristic is consistent: h(a) ≤ c(a,b) + h(b) on every finite step between non-negative cells |
| GridAStar.HeuristicBelowStepCost | trunk/src/robotutils/planning/GridAStar.java:173-188 | between adjacent non-negative cells the heuristic is exactly 1 and does not exceed the step cost |
| GridGraph.InBoundsFrom | src/robotutils/data/GridGraph.java:112-116 | the bounds loop from dimension i holds exactly when every later coordinate is inside its extent |
| GridGraph.ContainsVertex | src/robotutils/data/GridGraph.java:107-119 | a vertex has exactly dims coordinates, each in [0, size(i)) |
| GridGraph.ContainsEdge | src/robotutils/data/GridGraph.java:82-105 | an edge has two endpoints, both vertices, differing in one dimension by exactly one |
| GridGraph.ContainsEdgeSymmetric | src/robotutils/data/GridGraph.java:82-105 | {a,b} is an edge exactly when {b,a} is, and no vertex has a self-loop |
| GridGraph.StepIsEdge | src/robotutils/data/GridGraph.java:82-105 | a unit step between two vertices is an edge |
| GridGraph.GetEdge | src/robotutils/data/GridGraph.java:56-64 | returns the pair {v, v1} exactly when it is an edge, null otherwise |
| GridGraph.GetAllEdges | src/robotutils/data/GridGraph.java:45-54 | at most one edge, empty exactly when getEdge is null, and only the pair {v, v1} |
| GridGraph.GetEdgeSource | src/robotutils/data/GridGraph.java:145-147 | throws exactly for an empty edge array |
| GridGraph.GetEdgeTarget | src/robotutils/data/GridGraph.java:149-151 | throws exactly for an edge array shorter than two |
| GridGraph.GetEdgeEndpoints | src/robotutils/data/GridGraph.java:56-64 | the edge returned by getEdge(v, v1) has source v and target v1 |
| GridGraph.GetEdgeWeight | src/robotutils/data/GridGraph.java:153-155 | the weight is the midpoint of the two endpoint cell values (equidistant from both, so between them), and a short edge array throws |
| GridGraph.GetEdgeWeightSymmetric | src/robotutils/data/GridGraph.java:153-155 | the weight does not depend on the edge's direction |
| BiRRT.OutcomeCodesDistinct | src/robotutils/planning/BiRRT.java:41-45 | ADVANCED, REACHED and TRAPPED are pairwise distinct |
| BiRRT.NearestNeighbor | src/robotutils/planning/BiRRT.java:118-142 | -1 on an empty tree or when no distance is below Double.MAX_VALUE; otherwise the first index of least distance |
| BiRRT.Extend | src/robotutils/planning/BiRRT.java:159-182 | no eligible nearest node throws; a null newState gives TRAPPED with the tree unchanged; otherwise exactly one node with parent iNear is appended, REACHED exactly when its state is x and ADVANCED otherwise; the tree invariant is kept |
| BiRRT.Root | src/robotutils/planning/BiRRT.java:241-246 | a fresh tree is one root node with parent -1 |
| BiRRT.Plan | src/robotutils/planning/BiRRT.java:238-280 | no rounds give the two bare roots; both trees keep their roots and the parent-index invariant; each tree holds at most one node more than the round limit; on a connection both trees end in the same state |
| BiRRT.PlanDefault | src/robotutils/planning/BiRRT.java:226-228 | planning with the default limit of 2000 rounds keeps the tree invariant and leaves at most 2001 nodes in each tree |
| AStar.DefaultScore | src/robotutils/planning/AStar.java:49-54 | a fresh score has no route and infinite g, h and f |
| AStar.StartScore | src/robotutils/planning/AStar.java:87-91 | the start score has g 0, h the heuristic from start to goal, and f equal to h |
| AStar.ScoreCompare | src/robotutils/planning/AStar.java:63-68 | a vertex without a score throws a null-pointer exception; on finite f it is negative exactly when f1 ≥ f2 + 1 and positive exactly when f2 ≥ f1 + 1 |
| AStar.ScoreCompareOrder | src/robotutils/planning/AStar.java:63-68 | a larger f by more than 1 ranks first, and f differences below 1 tie |
| AStar.FixedRankOrder | src/robotutils/planning/AStar.java:56-69 | the corrected comparator ranks the smaller f first and is antisymmetric |
| AStar.PollFrom | src/robotutils/planning/AStar.java:97 | the scan keeps the first element that no later element ranks before; with the corrected comparator it ranks no greater than any element |
| AStar.PollIndex | src/robotutils/planning/AStar.java:97 | poll picks an element no later element ranks before; with the corrected comparator its f is least |
| AStar.PollTakesLargestF | src/robotutils/planning/AStar.java:63-68 | with f values 1 and 3, the comparator as written polls the f=3 vertex and the corrected one polls the f=1 vertex |
| AStar.RemoveFirst | src/robotutils/planning/AStar.java:134 | removing y drops exactly one occurrence when present and nothing otherwise |
| AStar.Relax | src/robotutils/planning/AStar.java:123-146 | when y is not open or the tentative g is strictly better, y gets route edge, that g, h = heuristic(y, goal) and f = g + h and is (re)opened; otherwise nothing changes; no other score changes |
| AStar.VisitEdge | src/robotutils/planning/AStar.java:113-146 | the neighbour always gets a score; with the closed test on x as written, open is unchanged and only default scores are added; route edges stay valid |
| AStar.ScanEdges | src/robotutils/planning/AStar.java:113-147 | over all outgoing edges: closed unchanged, every target scored, and with the test as written open unchanged and only default scores added |
| AStar.Reconstruct | src/robotutils/planning/AStar.java:99-107 | the start vertex gives the empty path; with valid route edges the result is a walk from start to the vertex |
| AStar.SearchLoop | src/robotutils/planning/AStar.java:94-148 | an empty open queue ends with the empty path; a non-empty answer is a walk from start to goal |
| AStar.Search | src/robotutils/planning/AStar.java:76-152 | as written, search returns the empty path for every graph and every start and goal |
| AStar.SearchFixed | src/robotutils/planning/AStar.java:76-152 | the corrected search (start seeded, closed test on the neighbour) only returns walks from start to goal |
| AStar.LoopRound | src/robotutils/planning/AStar.java:94-120 | one round polls a non-goal vertex, closes it and scans its edges |
| AStar.LoopReachesGoal | src/robotutils/planning/AStar.java:97-107 | polling the goal ends the loop with its reconstructed path |
| AStar.SearchMissesOneEdgePath | src/robotutils/planning/AStar.java:84-94 | on a single edge from start to goal, search as written returns the empty path, while the corrected search returns that edge |

## Left out

- The heap's element type and comparator: `PriorityQueue` is modelled over `int` under natural order, where `delete`'s `equals` and the comparator agree. A comparator that answers 0 on unequal elements, such as A*'s, cannot be expressed; A*'s own queue is modelled separately in `AStar`.
- `DStarLite` (trunk): every method body is empty and `plan()` refers to undeclared fields, so it has no behaviour to model.
- `KuhnMunkresAlgorithm`: it is unfinished and throws `UnsupportedOperationException` after preprocessing.
- The trunk `BiRRT`: it does not compile (an undefined `sampler`). The src `BiRRT` is modelled.
- `BiRRT.path` is not modelled. `BiRRT.Plan` returns the two trees at the moment of connection instead of the reconstructed path.
- BiRRT.Plan: the contract does not state the A/B role swap after each round, only what holds for both trees whatever their roles.
- The poses, transforms, Kalman filters, `Config` loaders, `MapPanel`, `VelodyneLoader`, the example programs and `GraphAStar`: floating-point geometry, linear algebra, reflection, I/O, GUI, or thin adapters over jgrapht.
- `Coords.edist` (a square root) and every `toString`.
- `IntCoord.get()` returns the internal array, which lets callers alias it. Value semantics cannot express that aliasing.
- The `synchronized` modifiers of `PriorityQueue` and its `elements()` enumeration: the model is single-threaded and has no iterators.
- `PriorityQueue.Size` and `PriorityQueue.Empty` are plain length tests. They appear in the contracts of `Put`, `DeleteMin`, `Delete` and `Clear` rather than in rows of their own.
- `IntCoord.Dims` appears in the contract of `IntCoord.Get` rather than in a row of its own.
- Java int overflow is not modelled in the `StaticMap` strides and index sums, in `mdist`, in the `GridGraph.containsEdge` sum of coordinate differences, or in the neighbour step `up[i] += 1`. Those use unbounded integers.
- GridAStar.Mdist: does not wrap the sum of differences at 32 bits.
- GridGraph.ContainsEdge: does not wrap the sum of coordinate differences at 32 bits. With extents near 2^31 the Java sum can wrap to 1 and report an edge between cells that are not unit apart; the model reports no edge there.
- Floating-point rounding and the sign of zero: doubles are exact reals with infinities and NaN.
- The `GridGraph` mutators and whole-graph enumerations: they only throw `UnsupportedOperationException`.
- `GridMap.get` is total here. An implementation that throws is not modelled.
- StaticMap.Resize: a failing Java `resize` has already replaced `dims` and `cumDims` before it throws, over the old backing array. The model returns only the exception and does not represent that half-updated map.
- `StaticMap` before its first `resize`: the model requires a resized map (`Valid`). The Java would throw a `NullPointerException`.
- The `StaticMap` test expects `cumDims` to have n slots. The code allocates n+1 and never writes the last one. The model follows the code.
- `java.util.PriorityQueue` inside A* is modelled as a list polled for its first least element. The real heap's choice among equally ranked elements, and its behaviour under a comparator that changes while elements are queued, are not modelled.
- The A* reconstruction compares `curr != start` by reference. The model compares by value.
- AStar.Reconstruct, AStar.SearchLoop and AStar.SearchFixed: they take a `fuel` bound and give up with `NoTermination` when it runs out. The Java loops are unbounded, so a search that would not terminate is cut short here.
- AStar.SearchFixed: proved sound (every returned path is a walk from start to goal) but not optimal. Completeness and optimality are not stated.

## Findings

| source | as written | input that shows it | evidently intended | confidence | as-written member | corrected member |
|---|---|---|---|---|---|---|
| trunk/src/robotutils/planning/PriorityQueue.java:172-178 | `deleteElement` moves the last element into the vacated slot and only sifts it down | delete 6 from the heap [0,5,1,6,7,2]: 2 moves under 5, giving [0,5,1,2,7] | sift the moved element up when it is smaller than its new parent, so every deletion keeps heap order | high, not executed | PriorityQueue.DeleteBreaksHeapOrder | PriorityQueue.DeleteElementFixed |
| src/robotutils/planning/AStar.java:84-120 | start is never put into `open`, so the loop never runs; inside the loop `closed.contains(x)` tests the vertex just closed, so every neighbour is skipped | a graph with one edge from start to goal: search returns the empty list | seed `open` with start and test `closed.contains(y)` | high, not executed | AStar.SearchMissesOneEdgePath | AStar.SearchFixed |
| trunk/src/robotutils/planning/GridAStar.java:61 | `compareTo` returns `that.X[i] - this.X[i]` in int arithmetic, which overflows | (MIN_VALUE) vs (0): both orders compare negative | compare the two ints without subtracting, e.g. `Integer.compare` | medium, not executed | GridAStar.CompareToOverflowBreaksAntisymmetry | GridAStar.CompareToFixed |
| src/robotutils/planning/AStar.java:63-68 | the comparator returns `(int)(s2.f - s1.f)`, so the largest f is polled first and f values closer than 1 tie | two open vertices with f = 1 and f = 3: the f = 3 vertex is polled | `Double.compare(s1.f, s2.f)`: the least f first | high, not executed | AStar.PollTakesLargestF | AStar.PollIndex |

=== FILE: astar.dfy ===
/**
 * One-shot A* over an abstract directed graph (src/robotutils/planning/AStar.java).
 * The graph, the heuristic and the edge metric are parameters. The priority
 * queue `open` is a list polled for its first least element under the
 * comparator; `closed` is a list; `scores` is a map from vertices to scores.
 *
 * As written the search never puts the start vertex into `open`, so its loop
 * is never entered, and inside the loop it tests the vertex it has just closed
 * instead of the neighbour, so no neighbour would ever be relaxed. Both the
 * as-written search and a corrected one are modelled, sharing the loop and the
 * relaxation step.
 */
module AStar {
  import opened Wrappers
  import opened Doubles

  /** The graph: outgoing edges of each vertex, and each edge's endpoints. */
  datatype Graph<!V, !E> = Graph(outgoing: V -> seq<E>, source: E -> V, target: E -> V)

  /** Each vertex's outgoing edges start at that vertex. */
  ghost predicate WellFormed<V(!new), E>(graph: Graph<V, E>) {
    forall v: V, e: E :: e in graph.outgoing(v) ==> graph.source(e) == v
  }

  /** The search's metadata about a vertex: the edge it was reached by and its g, h and f values. */
  datatype Score<E> = Score(route: Option<E>, g: Dbl, h: Dbl, f: Dbl)

  /** A fresh `Score`: no route, and g, h and f all infinite. */
  function DefaultScore<E>(): (s: Score<E>)
    ensures s.route.None? && s.g.PosInf? && s.h.PosInf? && s.f.PosInf?
  {
    Score(None, PosInf, PosInf, PosInf)
  }

  /** The start vertex's score: g = 0 and f = h = the heuristic distance to the goal. */
  function StartScore<V, E>(heuristic: (V, V) -> Dbl, start: V, goal: V): (s: Score<E>)
    ensures s.route.None? && s.g == Finite(0.0) && s.h == heuristic(start, goal) && s.f == s.h
  {
    Score(None, Finite(0.0), heuristic(start, goal), heuristic(start, goal))
  }

  /**
   * The ordering of `open`. As written (`fixed` false) it is `ScoreComparator`:
   * `(int)(s2.f - s1.f)`. Corrected, it is `Double.compare(s1.f, s2.f)`.
   */
  function Rank<V(==), E>(fixed: bool, scores: map<V, Score<E>>, o1: V, o2: V): int
    requires o1 in scores && o2 in scores
  {
    if fixed then Compare(scores[o1].f, scores[o2].f)
    else ToInt(Sub(scores[o2].f, scores[o1].f))
  }

  /** `ScoreComparator.compare`: a vertex without a score makes it dereference null. */
  function ScoreCompare<V(==), E>(scores: map<V, Score<E>>, o1: V, o2: V): (r: Result<int>)
    ensures r.Failure? <==> o1 !in scores || o2 !in scores
    ensures r.Failure? ==> r.fault == NullPointer
    ensures r.Success? ==> IsInt32(r.value)
    ensures r.Success? && scores[o1].f.Finite? && scores[o2].f.Finite? ==>
              (r.value < 0 <==> scores[o1].f.r >= scores[o2].f.r + 1.0)
              && (r.value > 0 <==> scores[o2].f.r >= scores[o1].f.r + 1.0)
  {
    if o1 !in scores || o2 !in scores then Failure(NullPointer)
    else Success(Rank(false, scores, o1, o2))
  }

  /**
   * The comparator puts the vertex with the larger f first, and any two
   * finite f values less than one apart compare as equal.
   */
  lemma ScoreCompareOrder<V, E>(scores: map<V, Score<E>>, o1: V, o2: V)
    requires o1 in scores && o2 in scores
    requires scores[o1].f.Finite? && scores[o2].f.Finite?
    ensures scores[o1].f.r > scores[o2].f.r + 1.0 ==> ScoreCompare(scores, o1, o2).value < 0
    ensures -1.0 < scores[o1].f.r - scores[o2].f.r < 1.0 ==> ScoreCompare(scores, o1, o2).value == 0
  {
  }

  /** The corrected comparator orders by f, smallest first. */
  lemma FixedRankOrder<V, E>(scores: map<V, Score<E>>, o1: V, o2: V)
    requires o1 in scores && o2 in scores
    requires scores[o1].f.Finite? && scores[o2].f.Finite?
    ensures Rank(true, scores, o1, o2) < 0 <==> scores[o1].f.r < scores[o2].f.r
    ensures Rank(true, scores, o1, o2) == -Rank(true, scores, o2, o1)
  {
  }

  predicate Scored<V(==), E>(scores: map<V, Score<E>>, open: seq<V>) {
    forall k :: 0 <= k < |open| ==> open[k] in scores
  }

  /** `open.poll()`: the scan from index i keeps the first element that ranks strictly before the best so far. */
  function PollFrom<V(==), E>(fixed: bool, scores: map<V, Score<E>>, open: seq<V>, i: nat, best: nat): (b: nat)
    requires Scored(scores, open) && best < i <= |open|
    requires forall j :: best < j < i ==> Rank(fixed, scores, open[j], open[best]) >= 0
    requires fixed ==> forall j :: 0 <= j < i ==> Rank(fixed, scores, open[j], open[best]) >= 0
    ensures best <= b < |open|
    ensures forall j :: b < j < |open| ==> Rank(fixed, scores, open[j], open[b]) >= 0
    ensures fixed ==> forall j :: 0 <= j < |open| ==> Rank(fixed, scores, open[j], open[b]) >= 0
    decreases |open| - i
  {
    if i == |open| then best
    else if Rank(fixed, scores, open[i], open[best]) < 0 then
      assert fixed ==> forall j :: 0 <= j < i + 1 ==> Rank(fixed, scores, open[j], open[i]) >= 0 by {
        if fixed {
          forall j | 0 <= j < i + 1
            ensures Rank(fixed, scores, open[j], open[i]) >= 0
          {
            var fi, fj, fb := scores[open[i]].f, scores[open[j]].f, scores[open[best]].f;
            if j == i {
              CompareIsTotalOrder(fi, fi, fi);
            } else {
              assert Rank(fixed, scores, open[j], open[best]) >= 0;
              CompareIsTotalOrder(fj, fi, fb);
            }
          }
        }
      }
      PollFrom(fixed, scores, open, i + 1, i)
    else PollFrom(fixed, scores, open, i + 1, best)
  }

  /**
   * The index of the element `open.poll()` removes: no later element ranks
   * strictly before it, and under the corrected comparator no element does.
   */
  function PollIndex<V(==), E>(fixed: bool, scores: map<V, Score<E>>, open: seq<V>): (i: nat)
    requires Scored(scores, open) && |open| > 0
    ensures i < |open|
    ensures forall j :: i < j < |open| ==> Rank(fixed, scores, open[j], open[i]) >= 0
    ensures fixed ==> forall j :: 0 <= j < |open| ==> Compare(scores[open[i]].f, scores[open[j]].f) <= 0
  {
    var i := PollFrom(fixed, scores, open, 1, 0);
    assert fixed ==> forall j :: 0 <= j < |open| ==> Compare(scores[open[i]].f, scores[open[j]].f) <= 0 by {
      if fixed {
        forall j | 0 <= j < |open|
          ensures Compare(scores[open[i]].f, scores[open[j]].f) <= 0
        {
          CompareIsTotalOrder(scores[open[j]].f, scores[open[i]].f, scores[open[i]].f);
        }
      }
    }
    i
  }

  /**
   * With f values 1 and 3 the as-written comparator polls the vertex with
   * f = 3 first, while A* expands the least f; the corrected one polls f = 1.
   */
  lemma PollTakesLargestF()
    ensures var scores: map<int, Score<int>> := map[0 := Score(None, Finite(0.0), Finite(1.0), Finite(1.0)),
                              1 := Score(None, Finite(0.0), Finite(3.0), Finite(3.0))];
            PollIndex(false, scores, [0, 1]) == 1 && PollIndex(true, scores, [0, 1]) == 0
  {
  }

  /** `open.remove(y)`: drop the first occurrence, if any. */
  function RemoveFirst<V(==)>(s: seq<V>, y: V): (r: seq<V>)
    ensures y !in s ==> r == s
    ensures y in s ==> |r| == |s| - 1 && multiset(r) == multiset(s) - multiset{y}
  {
    if |s| == 0 then s
    else if s[0] == y then
      assert s == [s[0]] + s[1..];
      s[1..]
    else
      assert s == [s[0]] + s[1..];
      [s[0]] + RemoveFirst(s[1..], y)
  }

  datatype SearchState<V, E> = SearchState(scores: map<V, Score<E>>, closed: seq<V>, open: seq<V>)

  /** Every recorded route edge ends at its vertex and is an outgoing edge of its source. */
  ghost predicate RouteInv<V, E>(graph: Graph<V, E>, scores: map<V, Score<E>>) {
    forall v :: v in scores && scores[v].route.Some? ==>
      graph.target(scores[v].route.value) == v
      && scores[v].route.value in graph.outgoing(graph.source(scores[v].route.value))
  }

  /**
   * The relaxation of `edge` from x to y: when y is not open or the new g is
   * lower, y's score gets the edge, the new g, h and f = g + h, and y is
   * re-inserted into `open`.
   */
  function Relax<V(==), E>(graph: Graph<V, E>, heuristic: (V, V) -> Dbl, metric: E -> Dbl, goal: V,
                           x: V, edge: E, st: SearchState<V, E>): (r: SearchState<V, E>)
    requires x in st.scores && graph.target(edge) in st.scores
    ensures r.closed == st.closed && r.scores.Keys == st.scores.Keys
    ensures forall v :: v in st.scores && v != graph.target(edge) ==> r.scores[v] == st.scores[v]
    ensures forall k :: 0 <= k < |st.open| ==> st.open[k] in r.open
    ensures forall k :: 0 <= k < |r.open| && r.open[k] != graph.target(edge) ==> r.open[k] in st.open
    ensures var y := graph.target(edge);
            var g := Add(st.scores[x].g, metric(edge));
            if y !in st.open || Less(g, st.scores[y].g) then
              y in r.open
              && r.scores[y] == Score(Some(edge), g, heuristic(y, goal), Add(g, heuristic(y, goal)))
            else r == st
  {
    var y := graph.target(edge);
    var tentative := Add(st.scores[x].g, metric(edge));
    if y !in st.open || Less(tentative, st.scores[y].g) then
      var h := heuristic(y, goal);
      var open' := RemoveFirst(st.open, y) + [y];
      assert forall k :: 0 <= k < |st.open| ==> st.open[k] in open' by {
        forall k | 0 <= k < |st.open|
          ensures st.open[k] in open'
        {
          var v := st.open[k];
          if v != y {
            assert v in multiset(st.open);
            assert v in multiset(open');
          }
        }
      }
      assert forall k :: 0 <= k < |open'| && open'[k] != y ==> open'[k] in st.open by {
        forall k | 0 <= k < |open'| && open'[k] != y
          ensures open'[k] in st.open
        {
          var v := open'[k];
          assert v in multiset(open');
          assert v in multiset(st.open);
        }
      }
      st.(scores := st.scores[y := Score(Some(edge), tentative, h, Add(tentative, h))], open := open')
    else st
  }

  /**
   * One pass of the loop over `graph.outgoingEdgesOf(x)`: the target gets a
   * default score if it has none, and the edge is skipped when the tested
   * vertex is closed. As written (`fixed` false) the tested vertex is x
   * itself, which the caller has just closed; corrected, it is the target.
   */
  function VisitEdge<V(==), E>(fixed: bool, graph: Graph<V, E>, heuristic: (V, V) -> Dbl, metric: E -> Dbl,
                               goal: V, x: V, edge: E, st: SearchState<V, E>): (r: SearchState<V, E>)
    requires x in st.scores
    ensures r.closed == st.closed
    ensures st.scores.Keys <= r.scores.Keys && graph.target(edge) in r.scores
    ensures Scored(st.scores, st.open) ==> Scored(r.scores, r.open)
    ensures !fixed && x in st.closed ==>
              r.open == st.open
              && forall v :: v in r.scores ==>
                   if v in st.scores then r.scores[v] == st.scores[v] else r.scores[v] == DefaultScore()
    ensures RouteInv(graph, st.scores) && edge in graph.outgoing(x) && graph.source(edge) == x
            ==> RouteInv(graph, r.scores)
  {
    var y := graph.target(edge);
    var st1 := if y in st.scores then st else st.(scores := st.scores[y := DefaultScore()]);
    var tested := if fixed then y else x;
    if tested in st1.closed then st1 else Relax(graph, heuristic, metric, goal, x, edge, st1)
  }

  /** The whole loop over the edges, in order. */
  function ScanEdges<V(==), E>(fixed: bool, graph: Graph<V, E>, heuristic: (V, V) -> Dbl, metric: E -> Dbl,
                               goal: V, x: V, edges: seq<E>, st: SearchState<V, E>): (r: SearchState<V, E>)
    requires x in st.scores
    ensures r.closed == st.closed
    ensures st.scores.Keys <= r.scores.Keys
    ensures forall k :: 0 <= k < |edges| ==> graph.target(edges[k]) in r.scores
    ensures Scored(st.scores, st.open) ==> Scored(r.scores, r.open)
    ensures !fixed && x in st.closed ==>
              r.open == st.open
              && forall v :: v in r.scores ==>
                   if v in st.scores then r.scores[v] == st.scores[v] else r.scores[v] == DefaultScore()
    ensures RouteInv(graph, st.scores)
            && (forall k :: 0 <= k < |edges| ==> edges[k] in graph.outgoing(x) && graph.source(edges[k]) == x)
            ==> RouteInv(graph, r.scores)
    decreases |edges|
  {
    if |edges| == 0 then st
    else
      var st' := VisitEdge(fixed, graph, heuristic, metric, goal, x, edges[0], st);
      var r := ScanEdges(fixed, graph, heuristic, metric, goal, x, edges[1..], st');
      assert forall k :: 1 <= k < |edges| ==> edges[k] == edges[1..][k - 1];
      r
  }

  /** A sequence of edges that leads from `from` to `to` along the graph's outgoing edges. */
  ghost predicate IsWalk<V, E>(graph: Graph<V, E>, from: V, to: V, p: seq<E>) {
    (|p| == 0 ==> from == to)
    && (|p| > 0 ==> graph.source(p[0]) == from && graph.target(p[|p| - 1]) == to)
    && (forall k :: 0 <= k < |p| - 1 ==> graph.target(p[k]) == graph.source(p[k + 1]))
    && (forall k :: 0 <= k < |p| ==> p[k] in graph.outgoing(graph.source(p[k])))
  }

  /**
   * The path reconstruction: from `curr` back to `start`, prepend the route
   * edge and step to its source. A vertex without a score or a route makes
   * the Java dereference null. `fuel` bounds the steps; a route chain longer
   * than the number of scored vertices revisits a vertex, on which the Java
   * loops for ever.
   */
  function Reconstruct<V(==), E>(graph: Graph<V, E>, scores: map<V, Score<E>>, start: V, curr: V, fuel: nat)
    : (r: Result<seq<E>>)
    ensures curr == start ==> r == Success([])
    ensures RouteInv(graph, scores) && r.Success? ==> IsWalk(graph, start, curr, r.value)
    decreases fuel
  {
    if curr == start then Success([])
    else if curr !in scores || scores[curr].route.None? then Failure(NullPointer)
    else if fuel == 0 then Failure(NoTermination)
    else
      var e := scores[curr].route.value;
      var rest :- Reconstruct(graph, scores, start, graph.source(e), fuel - 1);
      Success(rest + [e])
  }

  /**
   * The `while (!open.isEmpty())` loop: poll, reconstruct on reaching the
   * goal, otherwise close the polled vertex and scan its edges. An empty
   * `open` ends the search with the empty list. `fuel` bounds the rounds.
   */
  function SearchLoop<V(==, !new), E>(fixed: bool, graph: Graph<V, E>, heuristic: (V, V) -> Dbl, metric: E -> Dbl,
                                start: V, goal: V, st: SearchState<V, E>, fuel: nat): (r: Result<seq<E>>)
    requires Scored(st.scores, st.open)
    ensures |st.open| == 0 ==> r == Success([])
    ensures WellFormed(graph) && RouteInv(graph, st.scores) && r.Success? && |r.value| > 0 ==>
              IsWalk(graph, start, goal, r.value)
    decreases fuel
  {
    if |st.open| == 0 then Success([])
    else if fuel == 0 then Failure(NoTermination)
    else
      var i := PollIndex(fixed, st.scores, st.open);
      var x := st.open[i];
      var open' := st.open[..i] + st.open[i + 1..];
      if x == goal then Reconstruct(graph, st.scores, start, goal, |st.scores|)
      else
        assert Scored(st.scores, open') by {
          forall k | 0 <= k < |open'|
            ensures open'[k] in st.scores
          {
            if k < i {
              assert open'[k] == st.open[k];
            } else {
              assert open'[k] == st.open[k + 1];
            }
          }
        }
        var st' := ScanEdges(fixed, graph, heuristic, metric, goal, x, graph.outgoing(x),
                             SearchState(st.scores, st.closed + [x], open'));
        SearchLoop(fixed, graph, heuristic, metric, start, goal, st', fuel - 1)
  }

  /**
   * `search` as written: the start score is recorded but the start vertex is
   * never inserted into `open`, so the result is the empty list whatever the
   * graph, heuristic, metric and endpoints.
   */
  function Search<V(==, !new), E>(graph: Graph<V, E>, heuristic: (V, V) -> Dbl, metric: E -> Dbl, start: V, goal: V)
    : (r: Result<seq<E>>)
    ensures r == Success([])
  {
    var st := SearchState(map[start := StartScore(heuristic, start, goal)], [], []);
    SearchLoop(false, graph, heuristic, metric, start, goal, st, 0)
  }

  /**
   * The search as evidently intended: `open` starts with the start vertex,
   * neighbours are skipped when they themselves are closed, and `open` is
   * ordered smallest f first. Within `fuel` rounds a non-empty answer is a
   * walk from start to goal.
   */
  function SearchFixed<V(==, !new), E>(graph: Graph<V, E>, heuristic: (V, V) -> Dbl, metric: E -> Dbl,
                                 start: V, goal: V, fuel: nat): (r: Result<seq<E>>)
    ensures WellFormed(graph) && r.Success? && |r.value| > 0 ==> IsWalk(graph, start, goal, r.value)
  {
    var st := SearchState(map[start := StartScore(heuristic, start, goal)], [], [start]);
    SearchLoop(true, graph, heuristic, metric, start, goal, st, fuel)
  }

  /** One round of the loop that polls a vertex other than the goal. */
  lemma LoopRound<V(!new), E>(fixed: bool, graph: Graph<V, E>, heuristic: (V, V) -> Dbl, metric: E -> Dbl,
                              start: V, goal: V, st: SearchState<V, E>, fuel: nat, i: nat, x: V, rest: seq<V>)
    requires Scored(st.scores, st.open) && |st.open| > 0 && fuel > 0
    requires i == PollIndex(fixed, st.scores, st.open) && x == st.open[i] && x != goal
    requires rest == st.open[..i] + st.open[i + 1..]
    ensures Scored(st.scores, rest)
    ensures var scanned := ScanEdges(fixed, graph, heuristic, metric, goal, x, graph.outgoing(x),
                                     SearchState(st.scores, st.closed + [x], rest));
            Scored(scanned.scores, scanned.open)
            && SearchLoop(fixed, graph, heuristic, metric, start, goal, st, fuel)
               == SearchLoop(fixed, graph, heuristic, metric, start, goal, scanned, fuel - 1)
  {
    forall k | 0 <= k < |rest|
      ensures rest[k] in st.scores
    {
      if k < i {
        assert rest[k] == st.open[k];
      } else {
        assert rest[k] == st.open[k + 1];
      }
    }
  }

  /** A goal reached by one edge from the start reconstructs to that edge. */
  lemma ReconstructOneEdge<V, E>(graph: Graph<V, E>, scores: map<V, Score<E>>, start: V, goal: V, e: E, fuel: nat)
    requires start != goal && goal in scores && scores[goal].route == Some(e) && graph.source(e) == start
    requires fuel >= 1
    ensures Reconstruct(graph, scores, start, goal, fuel) == Success([e])
  {
    assert Reconstruct(graph, scores, start, start, fuel - 1) == Success([]);
    assert [] + [e] == [e];
  }

  /** The round of the loop that polls the goal reconstructs the path. */
  lemma LoopReachesGoal<V(!new), E>(fixed: bool, graph: Graph<V, E>, heuristic: (V, V) -> Dbl, metric: E -> Dbl,
                                    start: V, goal: V, st: SearchState<V, E>, fuel: nat)
    requires Scored(st.scores, st.open) && |st.open| > 0 && fuel > 0
    requires st.open[PollIndex(fixed, st.scores, st.open)] == goal
    ensures SearchLoop(fixed, graph, heuristic, metric, start, goal, st, fuel)
         == Reconstruct(graph, st.scores, start, goal, |st.scores|)
  {
  }

  /** The score the goal receives over the edge e from a start vertex with g = 0. */
  function OneEdgeScore<V, E>(heuristic: (V, V) -> Dbl, metric: E -> Dbl, goal: V, e: E): (s: Score<E>)
    ensures s.route == Some(e) && s.g == Add(Finite(0.0), metric(e)) && s.h == heuristic(goal, goal)
    ensures s.f == Add(s.g, s.h)
  {
    var g := Add(Finite(0.0), metric(e));
    Score(Some(e), g, heuristic(goal, goal), Add(g, heuristic(goal, goal)))
  }

  /** The corrected scan of the start vertex's only edge opens the goal with its score over that edge. */
  lemma OneEdgeScan<V, E>(graph: Graph<V, E>, heuristic: (V, V) -> Dbl, metric: E -> Dbl,
                          start: V, goal: V, e: E, s0: Score<E>)
    requires start != goal && s0.g == Finite(0.0)
    requires graph.outgoing(start) == [e] && graph.source(e) == start && graph.target(e) == goal
    ensures ScanEdges(true, graph, heuristic, metric, goal, start, graph.outgoing(start),
                      SearchState(map[start := s0], [start], []))
         == SearchState(map[start := s0, goal := OneEdgeScore(heuristic, metric, goal, e)], [start], [goal])
  {
    var scan := SearchState(map[start := s0], [start], []);
    var st1 := SearchState(map[start := s0, goal := OneEdgeScore(heuristic, metric, goal, e)], [start], [goal]);
    var mid := scan.(scores := map[start := s0, goal := DefaultScore()]);
    assert VisitEdge(true, graph, heuristic, metric, goal, start, e, scan)
        == Relax(graph, heuristic, metric, goal, start, e, mid);
    assert RemoveFirst(mid.open, goal) == [];
    assert Relax(graph, heuristic, metric, goal, start, e, mid) == st1;
    assert [e][1..] == [];
  }

  /** With the goal alone in `open` and its route edge leaving the start, the next round returns that edge. */
  lemma OneEdgeGoalRound<V(!new), E>(graph: Graph<V, E>, heuristic: (V, V) -> Dbl, metric: E -> Dbl,
                                     start: V, goal: V, e: E, st: SearchState<V, E>)
    requires start != goal && graph.source(e) == start
    requires st.open == [goal] && goal in st.scores && st.scores[goal].route == Some(e)
    ensures SearchLoop(true, graph, heuristic, metric, start, goal, st, 1) == Success([e])
  {
    assert PollIndex(true, st.scores, st.open) == 0;
    ReconstructOneEdge(graph, st.scores, start, goal, e, |st.scores|);
    LoopReachesGoal(true, graph, heuristic, metric, start, goal, st, 1);
  }

  /**
   * A graph whose start vertex has a single outgoing edge, to the goal. The
   * as-written search returns the empty list on it although the edge is a
   * path, while the corrected search returns that edge after two rounds,
   * whatever the heuristic and the edge's length.
   */
  lemma SearchMissesOneEdgePath<V(!new), E>(graph: Graph<V, E>, heuristic: (V, V) -> Dbl, metric: E -> Dbl,
                                                start: V, goal: V, e: E)
    requires start != goal
    requires graph.outgoing(start) == [e] && graph.source(e) == start && graph.target(e) == goal
    ensures Search(graph, heuristic, metric, start, goal) == Success([])
    ensures SearchFixed(graph, heuristic, metric, start, goal, 2) == Success([e])
  {
    var s0: Score<E> := StartScore(heuristic, start, goal);
    var st0 := SearchState(map[start := s0], [], [start]);
    assert PollIndex(true, st0.scores, st0.open) == 0;
    LoopRound(true, graph, heuristic, metric, start, goal, st0, 2, 0, start, []);
    assert SearchState(st0.scores, st0.closed + [start], []) == SearchState(map[start := s0], [start], []);
    OneEdgeScan(graph, heuristic, metric, start, goal, e, s0);
    var st1 := SearchState(map[start := s0, goal := OneEdgeScore(heuristic, metric, goal, e)], [start], [goal]);
    OneEdgeGoalRound(graph, heuristic, metric, start, goal, e, st1);
  }
}

=== FILE: birrt.dfy ===
/**
 * Bidirectional rapidly-exploring random trees (src/robotutils/planning/BiRRT.java).
 * The abstract `distance`, `newState` and `randomState` of the class are
 * parameters: `newState` answers `None` where the Java returns null, and
 * `randomState(k)` is the sample drawn in round k. A tree is the list of its
 * nodes; each node names its parent by index.
 */
module BiRRT {
  import opened Wrappers
  import opened Doubles

  const DefaultIterationLimit: int := 2000
  const Advanced: int := -1
  const Reached: int := 0
  const Trapped: int := -2

  /** The outcome codes are pairwise distinct. */
  lemma OutcomeCodesDistinct()
    ensures Advanced != Reached && Advanced != Trapped && Reached != Trapped
  {
  }

  /** A tree node: its state, the action that reached it (null at a root) and its parent's index. */
  datatype Node<S, A> = Node(state: S, action: Option<A>, parent: int)

  /** A well-formed tree: a root with parent -1, and every later node's parent before it. */
  predicate TreeInv<S, A>(t: seq<Node<S, A>>) {
    |t| >= 1 && t[0].parent == -1
    && forall i :: 1 <= i < |t| ==> 0 <= t[i].parent < i
  }

  /** A distance that `nearestNeighbor` can select: strictly below `Double.MAX_VALUE` (so not NaN). */
  predicate Eligible(d: Dbl) {
    Less(d, Finite(MaxDouble))
  }

  /**
   * i is what `nearestNeighbor` must answer: -1 when no node is at an eligible
   * distance, otherwise the first node at the least eligible distance.
   */
  ghost predicate IsNearest<S, A>(distance: (S, S) -> Dbl, x: S, t: seq<Node<S, A>>, i: int) {
    if i == -1 then
      forall k :: 0 <= k < |t| ==> !Eligible(distance(t[k].state, x))
    else
      0 <= i < |t| && Eligible(distance(t[i].state, x))
      && (forall k :: 0 <= k < |t| ==> !Less(distance(t[k].state, x), distance(t[i].state, x)))
      && (forall k :: 0 <= k < i ==>
            !Eligible(distance(t[k].state, x)) || Less(distance(t[i].state, x), distance(t[k].state, x)))
  }

  /** `nearestNeighbor`: a linear scan keeping the first strictly smaller distance. */
  method NearestNeighbor<S, A>(distance: (S, S) -> Dbl, x: S, t: seq<Node<S, A>>) returns (minIdx: int)
    ensures -1 <= minIdx < |t|
    ensures IsNearest(distance, x, t, minIdx)
    ensures |t| == 0 ==> minIdx == -1
  {
    var minDist := Finite(MaxDouble);
    minIdx := -1;
    var idx := 0;
    while idx < |t|
      invariant 0 <= idx <= |t|
      invariant -1 <= minIdx < idx
      invariant minIdx == -1 ==> minDist == Finite(MaxDouble)
                                 && forall k :: 0 <= k < idx ==> !Eligible(distance(t[k].state, x))
      invariant minIdx >= 0 ==> minDist == distance(t[minIdx].state, x) && Eligible(minDist)
      invariant minIdx >= 0 ==> forall k :: 0 <= k < idx ==> !Less(distance(t[k].state, x), minDist)
      invariant minIdx >= 0 ==> forall k :: 0 <= k < minIdx ==>
                                  !Eligible(distance(t[k].state, x)) || Less(minDist, distance(t[k].state, x))
    {
      var curDist := distance(t[idx].state, x);
      if Less(curDist, minDist) {
        forall k | 0 <= k < idx
          ensures !Less(distance(t[k].state, x), curDist)
          ensures !Eligible(distance(t[k].state, x)) || Less(curDist, distance(t[k].state, x))
        {
          var dk := distance(t[k].state, x);
          if Less(dk, curDist) {
            LessTransitive(dk, curDist, minDist);
          }
          if Eligible(dk) {
            LessTotal(dk, curDist);
            if minIdx >= 0 {
              LessTotal(dk, minDist);
              if Less(minDist, dk) {
                LessTransitive(curDist, minDist, dk);
              }
            }
          }
        }
        minIdx := idx;
        minDist := curDist;
      }
      idx := idx + 1;
    }
  }

  /** The tree after `extend` and the code it returned. */
  datatype Extension<S, A> = Extension(tree: seq<Node<S, A>>, code: int)

  /**
   * `extend(t, x)`: grow the tree from its node nearest to x by the step
   * `newState` proposes. When no node is eligible the Java reads index -1
   * and throws. `iNear` is the index it grew from.
   */
  method Extend<S(==), A>(distance: (S, S) -> Dbl, newState: (S, S) -> Option<(S, A)>,
                          t: seq<Node<S, A>>, x: S)
    returns (r: Result<Extension<S, A>>, iNear: int)
    ensures IsNearest(distance, x, t, iNear)
    ensures r.Failure? <==> iNear == -1
    ensures r.Failure? ==> r.fault == IndexOutOfBounds
    ensures r.Success? && newState(x, t[iNear].state).None? ==> r.value == Extension(t, Trapped)
    ensures r.Success? && newState(x, t[iNear].state).Some? ==>
              var (s, a) := newState(x, t[iNear].state).value;
              r.value.tree == t + [Node(s, Some(a), iNear)]
              && (r.value.code == Reached <==> s == x)
              && (r.value.code == Advanced <==> s != x)
    ensures r.Success? && TreeInv(t) ==> TreeInv(r.value.tree)
  {
    iNear := NearestNeighbor(distance, x, t);
    if iNear == -1 {
      return Failure(IndexOutOfBounds), iNear;
    }
    var xNear := t[iNear].state;
    var xuNew := newState(x, xNear);
    if xuNew.Some? {
      var (s, a) := xuNew.value;
      var t' := t + [Node(s, Some(a), iNear)];
      if s == x {
        return Success(Extension(t', Reached)), iNear;
      } else {
        return Success(Extension(t', Advanced)), iNear;
      }
    }
    return Success(Extension(t, Trapped)), iNear;
  }

  /**
   * What `plan` ends with: whether the trees connected (the Java then returns
   * the path through them, otherwise the empty list) and the two trees.
   */
  datatype PlanOutcome<S, A> = PlanOutcome(connected: bool, tStart: seq<Node<S, A>>, tGoal: seq<Node<S, A>>)

  /** The trees `plan` starts from: each a single root. */
  function Root<S, A>(s: S): (t: seq<Node<S, A>>)
    ensures TreeInv(t) && |t| == 1 && t[0].state == s
  {
    [Node(s, None, -1)]
  }

  /**
   * `plan(start, goal, iterations)`: each round extends tree A toward a random
   * sample and, unless trapped, tree B toward A's new node; the search
   * succeeds when B reaches it, and otherwise the roles of A and B swap.
   */
  method Plan<S(==), A>(distance: (S, S) -> Dbl, newState: (S, S) -> Option<(S, A)>,
                        randomState: nat -> S, start: S, goal: S, iterations: int)
    returns (r: Result<PlanOutcome<S, A>>)
    ensures iterations <= 0 ==> r == Success(PlanOutcome(false, Root(start), Root(goal)))
    ensures r.Success? ==> TreeInv(r.value.tStart) && TreeInv(r.value.tGoal)
    ensures r.Success? ==> r.value.tStart[0] == Root(start)[0] && r.value.tGoal[0] == Root(goal)[0]
    ensures r.Success? ==> |r.value.tStart| + |r.value.tGoal| <= 2 + 2 * (if iterations < 0 then 0 else iterations)
    ensures r.Success? ==> |r.value.tStart| <= 1 + (if iterations < 0 then 0 else iterations)
    ensures r.Success? ==> |r.value.tGoal| <= 1 + (if iterations < 0 then 0 else iterations)
    ensures r.Success? && r.value.connected ==>
              |r.value.tStart| >= 2 && |r.value.tGoal| >= 2
              && r.value.tStart[|r.value.tStart| - 1].state == r.value.tGoal[|r.value.tGoal| - 1].state
  {
    var tStart: seq<Node<S, A>> := Root(start);
    var tGoal: seq<Node<S, A>> := Root(goal);
    var aIsStart := true;
    var k := 0;
    while k < iterations
      invariant 0 <= k <= (if iterations < 0 then 0 else iterations)
      invariant TreeInv(tStart) && TreeInv(tGoal)
      invariant tStart[0] == Root(start)[0] && tGoal[0] == Root(goal)[0]
      invariant |tStart| <= 1 + k && |tGoal| <= 1 + k
      invariant k == 0 ==> tStart == Root(start) && tGoal == Root(goal)
    {
      var tA := if aIsStart then tStart else tGoal;
      var tB := if aIsStart then tGoal else tStart;
      var xRand := randomState(k);
      var ra, _ := Extend(distance, newState, tA, xRand);
      if ra.Failure? {
        return Failure(ra.fault);
      }
      tA := ra.value.tree;
      if ra.value.code != Trapped {
        var xNew := tA[|tA| - 1].state;
        var rb, _ := Extend(distance, newState, tB, xNew);
        if rb.Failure? {
          return Failure(rb.fault);
        }
        tB := rb.value.tree;
        if rb.value.code == Reached {
          if aIsStart {
            tStart, tGoal := tA, tB;
          } else {
            tStart, tGoal := tB, tA;
          }
          return Success(PlanOutcome(true, tStart, tGoal));
        }
      }
      if aIsStart {
        tStart, tGoal := tA, tB;
      } else {
        tStart, tGoal := tB, tA;
      }
      aIsStart := !aIsStart;
      k := k + 1;
    }
    return Success(PlanOutcome(false, tStart, tGoal));
  }

  /** `plan(start, goal)`: the search with the default limit of 2000 rounds. */
  method PlanDefault<S(==), A>(distance: (S, S) -> Dbl, newState: (S, S) -> Option<(S, A)>,
                               randomState: nat -> S, start: S, goal: S)
    returns (r: Result<PlanOutcome<S, A>>)
    ensures r.Success? ==> TreeInv(r.value.tStart) && TreeInv(r.value.tGoal)
    ensures r.Success? ==> |r.value.tStart| <= 2001 && |r.value.tGoal| <= 2001
    ensures r.Success? && r.value.connected ==>
              r.value.tStart[|r.value.tStart| - 1].state == r.value.tGoal[|r.value.tGoal| - 1].state
  {
    r := Plan(distance, newState, randomState, start, goal, DefaultIterationLimit);
  }
}

=== FILE: doubles.dfy ===
/**
 * Java `double` values as exact reals extended with the IEEE 754 specials the
 * modelled code can produce: positive and negative infinity and NaN. Rounding
 * is not modelled: every finite value the modelled code computes (sums of
 * bytes, halves of such sums, caller-supplied distances) is taken as exact.
 * Also Java `int` bounds and the narrowing cast `(int)` from double.
 */
module Doubles {

  const IntMin: int := -0x8000_0000
  const IntMax: int := 0x7FFF_FFFF

  predicate IsInt32(x: int) {
    IntMin <= x <= IntMax
  }

  /** Reduction of x into the 32-bit two's-complement range, as Java int arithmetic wraps. */
  function Wrap(x: int): (w: int)
    ensures IsInt32(w)
    ensures (w - x) % 0x1_0000_0000 == 0
    ensures IsInt32(x) ==> w == x
  {
    (x - IntMin) % 0x1_0000_0000 + IntMin
  }

  /** Every element is a Java int. */
  predicate AllInt32(s: seq<int>) {
    forall k :: 0 <= k < |s| ==> IsInt32(s[k])
  }

  datatype Dbl = Finite(r: real) | PosInf | NegInf | NaN

  function Neg(a: Dbl): Dbl {
    match a
    case Finite(x) => Finite(-x)
    case PosInf => NegInf
    case NegInf => PosInf
    case NaN => NaN
  }

  /** IEEE addition: infinities absorb finite values, opposite infinities give NaN. */
  function Add(a: Dbl, b: Dbl): (s: Dbl)
    ensures a.Finite? && b.Finite? ==> s == Finite(a.r + b.r)
    ensures (a.NaN? || b.NaN?) ==> s.NaN?
    ensures (a.PosInf? && b.NegInf?) || (a.NegInf? && b.PosInf?) ==> s.NaN?
    ensures a.PosInf? && !b.NaN? && !b.NegInf? ==> s.PosInf?
    ensures b.PosInf? && !a.NaN? && !a.NegInf? ==> s.PosInf?
    ensures a.NegInf? && !b.NaN? && !b.PosInf? ==> s.NegInf?
    ensures b.NegInf? && !a.NaN? && !a.PosInf? ==> s.NegInf?
  {
    match (a, b)
    case (NaN, _) => NaN
    case (_, NaN) => NaN
    case (PosInf, NegInf) => NaN
    case (NegInf, PosInf) => NaN
    case (PosInf, _) => PosInf
    case (_, PosInf) => PosInf
    case (NegInf, _) => NegInf
    case (_, NegInf) => NegInf
    case (Finite(x), Finite(y)) => Finite(x + y)
  }

  function Sub(a: Dbl, b: Dbl): Dbl {
    Add(a, Neg(b))
  }

  /** The numeric `<` of Java: false whenever either side is NaN. */
  predicate Less(a: Dbl, b: Dbl) {
    match (a, b)
    case (NaN, _) => false
    case (_, NaN) => false
    case (Finite(x), Finite(y)) => x < y
    case (NegInf, NegInf) => false
    case (NegInf, _) => true
    case (PosInf, _) => false
    case (Finite(_), PosInf) => true
    case (Finite(_), NegInf) => false
  }

  /** Truncation toward zero, the rounding of Java's double-to-int cast. */
  function Trunc(x: real): (t: int)
    ensures x >= 0.0 ==> t as real <= x < t as real + 1.0
    ensures x < 0.0 ==> t as real - 1.0 < x <= t as real
  {
    if x >= 0.0 then x.Floor else -((-x).Floor)
  }

  /**
   * The narrowing primitive conversion `(int) d` of the Java Language
   * Specification, section 5.1.3: NaN becomes 0, values beyond the int range
   * saturate, everything else is truncated toward zero.
   */
  function ToInt(d: Dbl): (n: int)
    ensures IsInt32(n)
    ensures d.NaN? ==> n == 0
    ensures d.PosInf? ==> n == IntMax
    ensures d.NegInf? ==> n == IntMin
    ensures d.Finite? && -1.0 < d.r < 1.0 ==> n == 0
    ensures d.Finite? && d.r >= 1.0 ==> n > 0
    ensures d.Finite? && d.r <= -1.0 ==> n < 0
    ensures d.Finite? && 0.0 <= d.r < IntMax as real ==> n as real <= d.r < n as real + 1.0
    ensures d.Finite? && IntMin as real < d.r < 0.0 ==> n as real - 1.0 < d.r <= n as real
    ensures d.Finite? && d.r >= IntMax as real ==> n == IntMax
    ensures d.Finite? && d.r <= IntMin as real ==> n == IntMin
  {
    match d
    case NaN => 0
    case PosInf => IntMax
    case NegInf => IntMin
    case Finite(x) =>
      var t := Trunc(x);
      if t > IntMax then IntMax else if t < IntMin then IntMin else t
  }

  /**
   * `Double.compare(a, b)`: the numeric order, with NaN equal to itself and
   * above every other value. The sign of zero is not modelled.
   */
  function Compare(a: Dbl, b: Dbl): (c: int)
    ensures -1 <= c <= 1
    ensures !a.NaN? && !b.NaN? ==> (c < 0 <==> Less(a, b)) && (c > 0 <==> Less(b, a))
    ensures a.NaN? ==> (c == 0 <==> b.NaN?) && c >= 0
    ensures b.NaN? ==> (c == 0 <==> a.NaN?) && c <= 0
  {
    if a.NaN? then (if b.NaN? then 0 else 1)
    else if b.NaN? then -1
    else if Less(a, b) then -1 else if Less(b, a) then 1 else 0
  }

  /** `Compare` is a total order: antisymmetric, and transitive in both its strict and weak forms. */
  lemma CompareIsTotalOrder(a: Dbl, b: Dbl, c: Dbl)
    ensures Compare(a, b) == -Compare(b, a)
    ensures Compare(a, b) == 0 <==> a == b
    ensures Compare(a, b) < 0 && Compare(b, c) < 0 ==> Compare(a, c) < 0
    ensures Compare(a, b) <= 0 && Compare(b, c) <= 0 ==> Compare(a, c) <= 0
  {
  }

  /** `Less` is transitive, so `Compare` orders non-NaN values consistently. */
  lemma LessTransitive(a: Dbl, b: Dbl, c: Dbl)
    requires Less(a, b) && Less(b, c)
    ensures Less(a, c)
  {
  }

  /** Among values that are not NaN, `Less` is a total order. */
  lemma LessTotal(a: Dbl, b: Dbl)
    requires !a.NaN? && !b.NaN?
    ensures Less(a, b) || a == b || Less(b, a)
  {
  }

  /** `Double.MAX_VALUE`, (2 - 2^-52) * 2^1023, written out exactly. */
  const MaxDouble: real := 179769313486231570814527423731704356798070567525844996598917476803157260780028538760589558632766878171540458953514382464234321326889464182768467546703537516986049910576551282076245490090389328944075868508455133942304583236903222948165808559332123348274797826204144723168738177180919299881250404026184124858368.0
}

=== FILE: grid_astar.dfy ===
/**
 * A* specialised to an N-dimensional lattice read through a `GridMap`
 * (trunk/src/robotutils/planning/GridAStar.java): the `Coords` tuple, the
 * cardinal neighbourhood that skips negative cells, the Manhattan heuristic
 * and the mean-cell-value step cost.
 */
module GridAStar {
  import opened Wrappers
  import opened Doubles
  import opened Lattice

  /** `Coords`: an integer tuple; the constructor's copy is implicit in value semantics. */
  datatype Coords = Coords(x: seq<int>)

  /** The argument of `equals`: a `Coords`, or anything else (including null). */
  datatype Object = CoordsObject(c: Coords) | OtherObject

  /** The first index at or after `from` where a and b differ, or |a| when none does. */
  function FirstDiff(a: seq<int>, b: seq<int>, from: nat): (i: nat)
    requires |a| == |b| && from <= |a|
    ensures from <= i <= |a|
    ensures forall k :: from <= k < i ==> a[k] == b[k]
    ensures i < |a| ==> a[i] != b[i]
    decreases |a| - from
  {
    if from == |a| || a[from] != b[from] then from else FirstDiff(a, b, from + 1)
  }

  /** Any index where a and b first differ is the one `FirstDiff` finds. */
  lemma FirstDiffUnique(a: seq<int>, b: seq<int>, k: nat)
    requires |a| == |b| && k <= |a|
    requires forall m :: 0 <= m < k ==> a[m] == b[m]
    requires k < |a| ==> a[k] != b[k]
    ensures FirstDiff(a, b, 0) == k
  {
  }

  /**
   * `compareTo` as written: at the first differing coordinate it returns
   * `that.X[i] - this.X[i]`, an int subtraction that wraps on overflow.
   * A positive answer means `a` comes after `b`, so the order is the reverse
   * of the lexicographic one.
   */
  function CompareTo(a: Coords, b: Coords): (r: Result<int>)
    ensures r.Failure? <==> |a.x| != |b.x|
    ensures r.Failure? ==> r.fault == IllegalArgument
    ensures r.Success? ==> IsInt32(r.value)
    ensures r.Success? && AllInt32(a.x) && AllInt32(b.x) ==> (r.value == 0 <==> a == b)
  {
    if |a.x| != |b.x| then Failure(IllegalArgument)
    else
      var i := FirstDiff(a.x, b.x, 0);
      if i == |a.x| then
        assert a.x == b.x;
        Success(0)
      else
        assert (AllInt32(a.x) && AllInt32(b.x)) ==> IsInt32(a.x[i]) && IsInt32(b.x[i]);
        Success(Wrap(b.x[i] - a.x[i]))
  }

  /**
   * The comparison `compareTo` evidently means: the sign of `that.X[i] - this.X[i]`
   * at the first difference, computed without overflow (as `Integer.compare`).
   */
  function CompareToFixed(a: Coords, b: Coords): (r: Result<int>)
    ensures r.Failure? <==> |a.x| != |b.x|
    ensures r.Failure? ==> r.fault == IllegalArgument
    ensures r.Success? ==> -1 <= r.value <= 1
    ensures r.Success? ==> (r.value == 0 <==> a == b)
  {
    if |a.x| != |b.x| then Failure(IllegalArgument)
    else
      var i := FirstDiff(a.x, b.x, 0);
      if i == |a.x| then
        assert a.x == b.x;
        Success(0)
      else if b.x[i] > a.x[i] then Success(1)
      else Success(-1)
  }

  /** Swapping the operands of the corrected comparison negates it. */
  lemma CompareToFixedAntisymmetric(a: Coords, b: Coords)
    requires |a.x| == |b.x|
    ensures CompareToFixed(a, b).value == -CompareToFixed(b, a).value
  {
    var i := FirstDiff(a.x, b.x, 0);
    FirstDiffUnique(b.x, a.x, i);
  }

  /** The corrected comparison is transitive: it orders coordinates reverse-lexicographically. */
  lemma CompareToFixedTransitive(a: Coords, b: Coords, c: Coords)
    requires |a.x| == |b.x| == |c.x|
    requires CompareToFixed(a, b).value > 0 && CompareToFixed(b, c).value > 0
    ensures CompareToFixed(a, c).value > 0
  {
    var i := FirstDiff(a.x, b.x, 0);
    var j := FirstDiff(b.x, c.x, 0);
    var k := if i < j then i else j;
    assert k < |a.x|;
    assert forall m :: 0 <= m < k ==> a.x[m] == c.x[m];
    assert c.x[k] > a.x[k];
    FirstDiffUnique(a.x, c.x, k);
  }

  /** Where no difference overflows, the as-written comparison has the corrected sign. */
  lemma CompareToAgreesWithoutOverflow(a: Coords, b: Coords)
    requires |a.x| == |b.x|
    requires forall k :: 0 <= k < |a.x| ==> IsInt32(b.x[k] - a.x[k])
    ensures CompareTo(a, b).value > 0 <==> CompareToFixed(a, b).value > 0
    ensures CompareTo(a, b).value < 0 <==> CompareToFixed(a, b).value < 0
  {
  }

  /**
   * The subtraction overflows for [-2^31] against [0]: both orders of the
   * comparison come out negative, so `sgn(x.compareTo(y)) == -sgn(y.compareTo(x))`
   * fails, against the `Comparable` contract.
   */
  lemma CompareToOverflowBreaksAntisymmetry()
    ensures CompareTo(Coords([IntMin]), Coords([0])).value < 0
    ensures CompareTo(Coords([0]), Coords([IntMin])).value < 0
    ensures CompareToFixed(Coords([IntMin]), Coords([0])).value > 0
  {
    assert FirstDiff([IntMin], [0], 0) == 0;
    assert FirstDiff([0], [IntMin], 0) == 0;
  }

  /** `equals`: the other object is a `Coords` with an equal array. */
  predicate Equals(a: Coords, obj: Object) {
    obj.CoordsObject? && SameInts(a.x, obj.c.x)
  }

  /** `equals` agrees with the comparison being zero. */
  lemma EqualsAgreesWithCompareTo(a: Coords, b: Coords)
    requires |a.x| == |b.x|
    ensures Equals(a, CoordsObject(b)) <==> CompareToFixed(a, b) == Success(0)
    ensures AllInt32(a.x) && AllInt32(b.x) ==> (Equals(a, CoordsObject(b)) <==> CompareTo(a, b) == Success(0))
  {
  }

  /** `hashCode`: 79 * 5 + the array hash, in int arithmetic. */
  function HashCode(a: Coords): (h: int)
    ensures IsInt32(h)
  {
    Wrap(79 * 5 + ArraysHash(a.x))
  }

  lemma EqualsAgreesWithHashCode(a: Coords, b: Coords)
    requires Equals(a, CoordsObject(b))
    ensures HashCode(a) == HashCode(b)
  {
  }

  /** `mdist`: the Manhattan distance, or an exception for tuples of different length. */
  function Mdist(a: Coords, b: Coords): (r: Result<int>)
    ensures r.Failure? <==> |a.x| != |b.x|
    ensures r.Failure? ==> r.fault == IllegalArgument
    ensures r.Success? ==> r.value >= 0 && (r.value == 0 <==> a == b)
  {
    if |a.x| != |b.x| then Failure(IllegalArgument)
    else
      ManhattanZeroIffEqual(a.x, b.x);
      Success(Manhattan(a.x, b.x))
  }

  /** `compareTo(that)` with a possibly null argument: null throws like a length mismatch. */
  function CompareToArg(a: Coords, that: Option<Coords>): (r: Result<int>)
    ensures r.Failure? <==> that.None? || |a.x| != |that.value.x|
    ensures r.Failure? ==> r.fault == IllegalArgument
    ensures that.Some? ==> r == CompareTo(a, that.value)
  {
    match that
    case None => Failure(IllegalArgument)
    case Some(b) => CompareTo(a, b)
  }

  /** `mdist(that)` with a possibly null argument: null throws like a length mismatch. */
  function MdistArg(a: Coords, that: Option<Coords>): (r: Result<int>)
    ensures r.Failure? <==> that.None? || |a.x| != |that.value.x|
    ensures r.Failure? ==> r.fault == IllegalArgument
    ensures that.Some? ==> r == Mdist(a, that.value)
  {
    match that
    case None => Failure(IllegalArgument)
    case Some(b) => Mdist(a, b)
  }

  /**
   * `mdist` sums the absolute coordinate differences front to back: the empty
   * tuples are at distance 0, and each leading coordinate adds its difference
   * to the distance between the remaining coordinates.
   */
  lemma MdistSumsDifferences(a: Coords, b: Coords)
    ensures Mdist(Coords([]), Coords([])) == Success(0)
    ensures |a.x| == |b.x| > 0 ==>
              Mdist(a, b).value == Abs(b.x[0] - a.x[0]) + Mdist(Coords(a.x[1..]), Coords(b.x[1..])).value
  {
  }

  /** `mdist` is a metric: symmetric and obeying the triangle inequality. */
  lemma MdistIsMetric(a: Coords, b: Coords, c: Coords)
    requires |a.x| == |b.x| == |c.x|
    ensures Mdist(a, b) == Mdist(b, a)
    ensures Mdist(a, c).value <= Mdist(a, b).value + Mdist(b, c).value
  {
    ManhattanSymmetric(a.x, b.x);
    ManhattanTriangle(a.x, b.x, c.x);
  }

  /**
   * The slot of t in the order `nbrs` visits the neighbours of s: twice the
   * first dimension where they differ, plus one when t lies below s there.
   */
  function StepRank(s: seq<int>, t: seq<int>): int
    requires |s| == |t|
  {
    var j := FirstDiff(s, t, 0);
    if j < |s| && t[j] > s[j] then 2 * j else 2 * j + 1
  }

  /** The +1 step along dimension j has slot 2j and the -1 step slot 2j+1. */
  lemma StepRankOfMove(s: seq<int>, j: nat, delta: int)
    requires j < |s| && (delta == 1 || delta == -1)
    ensures StepRank(s, Move(s, j, delta)) == if delta == 1 then 2 * j else 2 * j + 1
  {
    FirstDiffUnique(s, Move(s, j, delta), j);
  }

  /** The cells of r are s's length and listed in strictly increasing slot order. */
  ghost predicate RankAscending(s: seq<int>, r: seq<Coords>) {
    forall p, q :: 0 <= p < q < |r| && |r[p].x| == |s| && |r[q].x| == |s| ==>
      StepRank(s, r[p].x) < StepRank(s, r[q].x)
  }

  /** Every cell of r is s's length and at slot lo or later, and the slots ascend strictly. */
  ghost predicate RankedFrom(s: seq<int>, r: seq<Coords>, lo: int) {
    (forall c :: c in r ==> |c.x| == |s| && lo <= StepRank(s, c.x)) && RankAscending(s, r)
  }

  /** Two ascending runs, the first wholly below slot lo and the second at or above it, join into one. */
  lemma AscendingJoin(s: seq<int>, a: seq<Coords>, b: seq<Coords>, lo: int)
    requires RankAscending(s, a) && RankAscending(s, b)
    requires forall c :: c in a ==> |c.x| == |s| && StepRank(s, c.x) < lo
    requires forall c :: c in b ==> |c.x| == |s| && lo <= StepRank(s, c.x)
    ensures RankAscending(s, a + b)
  {
    var r := a + b;
    forall p, q | 0 <= p < q < |r| && |r[p].x| == |s| && |r[q].x| == |s|
      ensures StepRank(s, r[p].x) < StepRank(s, r[q].x)
    {
      if q < |a| {
      } else if p >= |a| {
        assert r[p] == b[p - |a|] && r[q] == b[q - |a|];
      } else {
        assert r[p] in a && r[q] in b;
      }
    }
  }

  /** The neighbours `nbrs` collects from dimension i on: up then down per dimension, kept when the cell is non-negative. */
  function NbrsFrom(grid: GridMap, s: Coords, i: nat): (r: seq<Coords>)
    requires i <= grid.dims <= |s.x|
    ensures |r| <= 2 * (grid.dims - i)
    ensures forall c :: c in r ==> |c.x| == |s.x| && Manhattan(s.x, c.x) == 1 && grid.get(c.x) >= 0
    ensures forall c, k :: c in r && grid.dims <= k < |s.x| ==> c.x[k] == s.x[k]
    ensures forall j :: i <= j < grid.dims ==>
              (Coords(Move(s.x, j, 1)) in r <==> grid.get(Move(s.x, j, 1)) >= 0)
    ensures forall j :: i <= j < grid.dims ==>
              (Coords(Move(s.x, j, -1)) in r <==> grid.get(Move(s.x, j, -1)) >= 0)
    decreases grid.dims - i
  {
    if i == grid.dims then []
    else
      var up := Move(s.x, i, 1);
      var down := Move(s.x, i, -1);
      MoveIsUnitApart(s.x, i, 1);
      MoveIsUnitApart(s.x, i, -1);
      (if grid.get(up) >= 0 then [Coords(up)] else [])
      + (if grid.get(down) >= 0 then [Coords(down)] else [])
      + NbrsFrom(grid, s, i + 1)
  }

  /** Dimension i's cells placed before the ascending cells of the later dimensions give an ascending list from slot 2i on. */
  lemma RankedStep(s: seq<int>, head: seq<Coords>, rest: seq<Coords>, r: seq<Coords>, i: nat)
    requires r == head + rest
    requires RankAscending(s, head) && RankedFrom(s, rest, 2 * i + 2)
    requires forall c :: c in head ==> |c.x| == |s| && 2 * i <= StepRank(s, c.x) < 2 * i + 2
    ensures RankedFrom(s, r, 2 * i)
  {
    AscendingJoin(s, head, rest, 2 * i + 2);
  }

  /** The cells `nbrs` keeps for dimension i alone: the +1 step, then the -1 step. */
  function DimNbrs(grid: GridMap, s: Coords, i: nat): (r: seq<Coords>)
    requires i < |s.x|
    ensures forall c :: c in r ==> |c.x| == |s.x| && 2 * i <= StepRank(s.x, c.x) < 2 * i + 2
    ensures RankAscending(s.x, r)
  {
    var up := Move(s.x, i, 1);
    var down := Move(s.x, i, -1);
    StepRankOfMove(s.x, i, 1);
    StepRankOfMove(s.x, i, -1);
    var ups := if grid.get(up) >= 0 then [Coords(up)] else [];
    var downs := if grid.get(down) >= 0 then [Coords(down)] else [];
    AscendingJoin(s.x, ups, downs, 2 * i + 1);
    ups + downs
  }

  lemma NbrsFromUnfold(grid: GridMap, s: Coords, i: nat)
    requires i < grid.dims <= |s.x|
    ensures NbrsFrom(grid, s, i) == DimNbrs(grid, s, i) + NbrsFrom(grid, s, i + 1)
  {
  }

  /**
   * `nbrs` lists its cells dimension by dimension, the +1 step before the -1
   * step, so no cell appears twice and the order is fixed by the slots.
   */
  lemma {:induction false} NbrsFromAscending(grid: GridMap, s: Coords, i: nat)
    requires i <= grid.dims <= |s.x|
    ensures RankedFrom(s.x, NbrsFrom(grid, s, i), 2 * i)
    decreases grid.dims - i
  {
    if i < grid.dims {
      NbrsFromAscending(grid, s, i + 1);
      NbrsFromUnfold(grid, s, i);
      RankedStep(s.x, DimNbrs(grid, s, i), NbrsFrom(grid, s, i + 1), NbrsFrom(grid, s, i), i);
    }
  }

  /**
   * `nbrs(s)`: the cells one unit step from s along the map's dimensions
   * whose value is non-negative. A tuple shorter than the map's dimension
   * count makes the copy-and-increment index past its end.
   */
  function Nbrs(grid: GridMap, s: Coords): (r: Result<seq<Coords>>)
    ensures r.Failure? <==> |s.x| < grid.dims
    ensures r.Failure? ==> r.fault == IndexOutOfBounds
    ensures r.Success? ==> |r.value| <= 2 * grid.dims
    ensures r.Success? ==> forall c :: c in r.value ==>
              |c.x| == |s.x| && Manhattan(s.x, c.x) == 1 && grid.get(c.x) >= 0
    ensures r.Success? ==> forall j :: 0 <= j < grid.dims ==>
              (Coords(Move(s.x, j, 1)) in r.value <==> grid.get(Move(s.x, j, 1)) >= 0)
              && (Coords(Move(s.x, j, -1)) in r.value <==> grid.get(Move(s.x, j, -1)) >= 0)
  {
    if |s.x| < grid.dims then Failure(IndexOutOfBounds) else Success(NbrsFrom(grid, s, 0))
  }

  /**
   * `nbrs(s)` lists no cell twice, and lists them in the order it visits
   * them: by dimension, the +1 step before the -1 step.
   */
  lemma NbrsInVisitOrder(grid: GridMap, s: Coords)
    requires Nbrs(grid, s).Success?
    ensures RankAscending(s.x, Nbrs(grid, s).value)
    ensures forall p, q :: 0 <= p < q < |Nbrs(grid, s).value| ==>
              Nbrs(grid, s).value[p] != Nbrs(grid, s).value[q]
  {
    NbrsFromAscending(grid, s, 0);
  }

  /** `succ`: the successors A* expands are the neighbours. */
  function Succ(grid: GridMap, s: Coords): Result<seq<Coords>> {
    Nbrs(grid, s)
  }

  /** `h`: the Manhattan distance, widened to double. */
  function H(a: Coords, b: Coords): (r: Result<real>)
    ensures r.Failure? <==> |a.x| != |b.x|
    ensures r.Success? ==> r.value >= 0.0 && (r.value == 0.0 <==> a == b)
    ensures r.Success? ==> r.value == Mdist(a, b).value as real
  {
    var d :- Mdist(a, b);
    Success(d as real)
  }

  /**
   * `c`: infinite between cells that are not adjacent, otherwise one plus the
   * mean of the two cell values.
   */
  function C(grid: GridMap, a: Coords, b: Coords): (r: Result<Dbl>)
    ensures r.Failure? <==> |a.x| != |b.x|
    ensures r.Success? ==> (r.value.PosInf? <==> Manhattan(a.x, b.x) != 1)
    ensures r.Success? ==> r.value.Finite? || r.value.PosInf?
    ensures r.Success? && r.value.Finite? ==>
              2.0 * (r.value.r - 1.0) == grid.get(a.x) as real + grid.get(b.x) as real
  {
    var d :- Mdist(a, b);
    if d != 1 then Success(PosInf)
    else Success(Finite((grid.get(a.x) as real + grid.get(b.x) as real) / 2.0 + 1.0))
  }

  /** Every successor is reached at a finite cost of at least one from a non-negative cell. */
  lemma SuccCostAtLeastOne(grid: GridMap, s: Coords, c: Coords)
    requires Succ(grid, s).Success? && c in Succ(grid, s).value
    requires grid.get(s.x) >= 0
    ensures C(grid, s, c).Success? && C(grid, s, c).value.Finite?
    ensures C(grid, s, c).value.r >= 1.0
  {
  }

  /**
   * The heuristic is consistent between non-negative cells: it never
   * exceeds the step cost plus the heuristic from the next cell, which is
   * what lets A* close a cell once it is expanded.
   */
  lemma HeuristicConsistent(grid: GridMap, a: Coords, b: Coords, goal: Coords)
    requires |a.x| == |b.x| == |goal.x|
    requires grid.get(a.x) >= 0 && grid.get(b.x) >= 0
    requires C(grid, a, b).value.Finite?
    ensures H(a, goal).value <= C(grid, a, b).value.r + H(b, goal).value
  {
    ManhattanTriangle(a.x, b.x, goal.x);
  }

  /** The heuristic never overestimates a single step's cost between non-negative cells. */
  lemma HeuristicBelowStepCost(grid: GridMap, a: Coords, b: Coords)
    requires |a.x| == |b.x|
    requires grid.get(a.x) >= 0 && grid.get(b.x) >= 0
    ensures C(grid, a, b).value.Finite? ==> H(a, b).value <= C(grid, a, b).value.r
    ensures C(grid, a, b).value.Finite? ==> H(a, b).value == 1.0
  {
  }
}

=== FILE: grid_graph.dfy ===
/**
 * The read-only graph view of a `GridMap` (src/robotutils/data/GridGraph.java):
 * vertices are in-bounds cells, edges are ordered pairs of cells one unit step
 * apart, and an edge weighs the mean of its two cell values.
 */
module GridGraph {
  import opened Wrappers
  import opened Lattice

  type Vertex = seq<int>
  type Edge = seq<Vertex>

  /** Every coordinate from dimension i on lies inside the map's extent. */
  function InBoundsFrom(grid: GridMap, v: Vertex, i: nat): (r: bool)
    requires |v| == grid.dims && i <= |v|
    ensures r <==> forall k :: i <= k < |v| ==> 0 <= v[k] < grid.size(k)
    decreases |v| - i
  {
    if i == |v| then true
    else if v[i] < 0 || v[i] >= grid.size(i) then false
    else InBoundsFrom(grid, v, i + 1)
  }

  /** `containsVertex`: one coordinate per dimension, each inside the map. */
  function ContainsVertex(grid: GridMap, v: Vertex): (r: bool)
    ensures r <==> |v| == grid.dims && forall k :: 0 <= k < |v| ==> 0 <= v[k] < grid.size(k)
  {
    |v| == grid.dims && InBoundsFrom(grid, v, 0)
  }

  /**
   * `containsEdge`: two vertices whose coordinate differences sum to one in
   * absolute value.
   */
  function ContainsEdge(grid: GridMap, e: Edge): (r: bool)
    ensures r <==> |e| == 2 && ContainsVertex(grid, e[0]) && ContainsVertex(grid, e[1])
                   && UnitApart(e[0], e[1])
  {
    if |e| != 2 then false
    else if !ContainsVertex(grid, e[0]) then false
    else if !ContainsVertex(grid, e[1]) then false
    else
      ManhattanOneIffUnitApart(e[0], e[1]);
      Manhattan(e[0], e[1]) == 1
  }

  /** The grid graph is undirected and has no self-loops. */
  lemma ContainsEdgeSymmetric(grid: GridMap, a: Vertex, b: Vertex)
    ensures ContainsEdge(grid, [a, b]) <==> ContainsEdge(grid, [b, a])
    ensures !ContainsEdge(grid, [a, a])
  {
    if |a| == |b| {
      ManhattanSymmetric(a, b);
      ManhattanOneIffUnitApart(a, b);
      ManhattanOneIffUnitApart(b, a);
      ManhattanZeroIffEqual(a, a);
      ManhattanOneIffUnitApart(a, a);
    }
  }

  /** Every in-bounds unit step from a vertex is an edge. */
  lemma StepIsEdge(grid: GridMap, v: Vertex, j: nat, delta: int)
    requires ContainsVertex(grid, v) && j < |v| && (delta == 1 || delta == -1)
    requires ContainsVertex(grid, Move(v, j, delta))
    ensures ContainsEdge(grid, [v, Move(v, j, delta)])
  {
    MoveIsUnitApart(v, j, delta);
    ManhattanOneIffUnitApart(v, Move(v, j, delta));
  }

  /** `getEdge`: the pair (v, v1) when it is an edge, null otherwise. */
  function GetEdge(grid: GridMap, v: Vertex, v1: Vertex): (r: Option<Edge>)
    ensures r.Some? <==> ContainsEdge(grid, [v, v1])
    ensures r.Some? ==> r.value == [v, v1]
  {
    var edge := [v, v1];
    if ContainsEdge(grid, edge) then Some(edge) else None
  }

  /** `getAllEdges`: the edge from `getEdge` as a singleton, or the empty set. */
  function GetAllEdges(grid: GridMap, v: Vertex, v1: Vertex): (r: set<Edge>)
    ensures |r| <= 1
    ensures r == {} <==> GetEdge(grid, v, v1).None?
    ensures forall e :: e in r ==> ContainsEdge(grid, e) && e == [v, v1]
  {
    match GetEdge(grid, v, v1)
    case Some(edge) => {edge}
    case None => {}
  }

  /** `getEdgeSource`: the first endpoint. */
  function GetEdgeSource(e: Edge): (r: Result<Vertex>)
    ensures r.Failure? <==> |e| < 1
    ensures r.Failure? ==> r.fault == IndexOutOfBounds
  {
    if |e| < 1 then Failure(IndexOutOfBounds) else Success(e[0])
  }

  /** `getEdgeTarget`: the second endpoint. */
  function GetEdgeTarget(e: Edge): (r: Result<Vertex>)
    ensures r.Failure? <==> |e| < 2
    ensures r.Failure? ==> r.fault == IndexOutOfBounds
  {
    if |e| < 2 then Failure(IndexOutOfBounds) else Success(e[1])
  }

  /** An edge found by `getEdge` has the queried vertices as source and target. */
  lemma GetEdgeEndpoints(grid: GridMap, v: Vertex, v1: Vertex)
    requires GetEdge(grid, v, v1).Some?
    ensures GetEdgeSource(GetEdge(grid, v, v1).value) == Success(v)
    ensures GetEdgeTarget(GetEdge(grid, v, v1).value) == Success(v1)
  {
  }

  /** `getEdgeWeight`: the mean of the two endpoint cell values. */
  function GetEdgeWeight(grid: GridMap, e: Edge): (r: Result<real>)
    ensures r.Failure? <==> |e| < 2
    ensures r.Failure? ==> r.fault == IndexOutOfBounds
    ensures r.Success? ==> -128.0 <= r.value <= 127.0
    ensures r.Success? ==>
      (grid.get(e[0]) <= grid.get(e[1]) ==> grid.get(e[0]) as real <= r.value <= grid.get(e[1]) as real)
      && (grid.get(e[1]) <= grid.get(e[0]) ==> grid.get(e[1]) as real <= r.value <= grid.get(e[0]) as real)
    ensures r.Success? ==> r.value - grid.get(e[0]) as real == grid.get(e[1]) as real - r.value
  {
    if |e| < 2 then Failure(IndexOutOfBounds)
    else Success((grid.get(e[0]) as int + grid.get(e[1]) as int) as real / 2.0)
  }

  /** The weight does not depend on the edge's direction. */
  lemma GetEdgeWeightSymmetric(grid: GridMap, a: Vertex, b: Vertex)
    ensures GetEdgeWeight(grid, [a, b]) == GetEdgeWeight(grid, [b, a])
  {
  }
}

=== FILE: int_coord.dfy ===
/**
 * The integer coordinate value type (trunk/src/robotutils/data/IntCoord.java).
 * A Dafny sequence is a value, so the defensive copy the constructor makes is
 * implicit: no later change to the caller's array can reach a coordinate.
 */
module IntCoord {
  import opened Wrappers
  import opened Doubles
  import opened Lattice

  datatype IntCoord = IntCoord(coords: seq<int>)

  /** The argument of `equals`: an `IntCoord`, or anything else (including null). */
  datatype Object = IntCoordObject(c: IntCoord) | OtherObject

  /** `dims()`: the number of coordinates. */
  function Dims(c: IntCoord): nat {
    |c.coords|
  }

  /** `get(dim)`: coordinate `dim` widened to double, which is exact for every int. */
  function Get(c: IntCoord, dim: int): (r: Result<real>)
    ensures r.Success? <==> 0 <= dim < Dims(c)
    ensures r.Failure? ==> r.fault == IndexOutOfBounds
    ensures r.Success? ==> r.value.Floor == c.coords[dim] && r.value == r.value.Floor as real
  {
    if 0 <= dim < |c.coords| then Success(c.coords[dim] as real) else Failure(IndexOutOfBounds)
  }

  /** `equals(obj)`: obj is an `IntCoord` whose array equals this one's. */
  predicate Equals(c: IntCoord, obj: Object) {
    obj.IntCoordObject? && SameInts(c.coords, obj.c.coords)
  }

  lemma EqualsIsEquivalence(a: IntCoord, b: IntCoord, c: IntCoord)
    ensures Equals(a, IntCoordObject(a))
    ensures Equals(a, IntCoordObject(b)) <==> Equals(b, IntCoordObject(a))
    ensures Equals(a, IntCoordObject(b)) && Equals(b, IntCoordObject(c)) ==> Equals(a, IntCoordObject(c))
    ensures Equals(a, IntCoordObject(b)) <==> a.coords == b.coords
  {
  }

  /** `hashCode()`: 67 * 7 + the array hash, in int arithmetic. */
  function HashCode(c: IntCoord): (h: int)
    ensures IsInt32(h)
  {
    Wrap(67 * 7 + ArraysHash(c.coords))
  }

  /** Coordinates that are `equals` have the same hash code. */
  lemma EqualsAgreesWithHashCode(a: IntCoord, b: IntCoord)
    requires Equals(a, IntCoordObject(b))
    ensures HashCode(a) == HashCode(b)
  {
  }

  lemma HashCodeExamples()
    ensures HashCode(IntCoord([])) == 470
    ensures HashCode(IntCoord([1, 2])) == 1463
  {
    assert [1, 2][..1] == [1];
    assert [1][..0] == [];
  }
}

=== FILE: lattice.dfy ===
/**
 * Integer lattice coordinates shared by the grid planners: the `GridMap`
 * interface they read cell values through, and the Manhattan distance that
 * both `GridAStar.Coords.mdist` and `GridGraph.containsEdge` compute.
 */
module Lattice {
  import opened Doubles

  /** Java `byte`. */
  newtype Byte = x: int | -128 <= x < 128

  /**
   * The `GridMap` interface, whose implementations are outside this model:
   * a number of dimensions, the extent of each dimension, and a byte per cell.
   * `get` is total here; an implementation that throws is not modelled.
   */
  datatype GridMap = GridMap(dims: nat, size: nat -> int, get: seq<int> -> Byte)

  function Abs(x: int): nat {
    if x < 0 then -x else x
  }

  /** Sum of the absolute coordinate differences. */
  function Manhattan(a: seq<int>, b: seq<int>): nat
    requires |a| == |b|
    decreases |a|
  {
    if |a| == 0 then 0 else Abs(b[0] - a[0]) + Manhattan(a[1..], b[1..])
  }

  /** `s` moved by `delta` along dimension `i`. */
  function Move(s: seq<int>, i: nat, delta: int): (t: seq<int>)
    requires i < |s|
    ensures |t| == |s| && t[i] == s[i] + delta
    ensures forall k :: 0 <= k < |s| && k != i ==> t[k] == s[k]
  {
    s[i := s[i] + delta]
  }

  /** a and b differ in exactly one coordinate, and there by exactly one. */
  ghost predicate UnitApart(a: seq<int>, b: seq<int>)
    requires |a| == |b|
  {
    exists j :: 0 <= j < |a| && Abs(b[j] - a[j]) == 1
      && forall k :: 0 <= k < |a| && k != j ==> a[k] == b[k]
  }

  lemma {:induction false} ManhattanSymmetric(a: seq<int>, b: seq<int>)
    requires |a| == |b|
    ensures Manhattan(a, b) == Manhattan(b, a)
    decreases |a|
  {
    if |a| > 0 {
      ManhattanSymmetric(a[1..], b[1..]);
    }
  }

  lemma {:induction false} ManhattanZeroIffEqual(a: seq<int>, b: seq<int>)
    requires |a| == |b|
    ensures Manhattan(a, b) == 0 <==> a == b
    decreases |a|
  {
    if |a| > 0 {
      ManhattanZeroIffEqual(a[1..], b[1..]);
      assert a == [a[0]] + a[1..] && b == [b[0]] + b[1..];
    }
  }

  lemma {:induction false} ManhattanTriangle(a: seq<int>, b: seq<int>, c: seq<int>)
    requires |a| == |b| == |c|
    ensures Manhattan(a, c) <= Manhattan(a, b) + Manhattan(b, c)
    decreases |a|
  {
    if |a| > 0 {
      ManhattanTriangle(a[1..], b[1..], c[1..]);
    }
  }

  /** Manhattan distance 1 means a single unit step along one dimension. */
  lemma {:induction false} ManhattanOneIffUnitApart(a: seq<int>, b: seq<int>)
    requires |a| == |b|
    ensures Manhattan(a, b) == 1 <==> UnitApart(a, b)
    decreases |a|
  {
    if |a| > 0 {
      var a', b' := a[1..], b[1..];
      ManhattanOneIffUnitApart(a', b');
      ManhattanZeroIffEqual(a', b');
      if Manhattan(a, b) == 1 {
        if Abs(b[0] - a[0]) == 1 {
          assert a' == b';
          forall k | 0 <= k < |a| && k != 0
            ensures a[k] == b[k]
          {
            assert a[k] == a'[k - 1];
          }
        } else {
          assert UnitApart(a', b');
          var j :| 0 <= j < |a'| && Abs(b'[j] - a'[j]) == 1
            && forall k :: 0 <= k < |a'| && k != j ==> a'[k] == b'[k];
          forall k | 0 <= k < |a| && k != j + 1
            ensures a[k] == b[k]
          {
            if k > 0 {
              assert a[k] == a'[k - 1];
            }
          }
          assert Abs(b[j + 1] - a[j + 1]) == 1;
        }
      }
      if UnitApart(a, b) {
        var j :| 0 <= j < |a| && Abs(b[j] - a[j]) == 1
          && forall k :: 0 <= k < |a| && k != j ==> a[k] == b[k];
        if j == 0 {
          assert a' == b' by {
            forall k | 0 <= k < |a'|
              ensures a'[k] == b'[k]
            {
              assert a'[k] == a[k + 1];
            }
          }
        } else {
          assert UnitApart(a', b') by {
            forall k | 0 <= k < |a'| && k != j - 1
              ensures a'[k] == b'[k]
            {
              assert a'[k] == a[k + 1];
            }
            assert Abs(b'[j - 1] - a'[j - 1]) == 1;
          }
        }
      }
    }
  }

  /** A unit move along one dimension is at Manhattan distance one. */
  lemma MoveIsUnitApart(s: seq<int>, i: nat, delta: int)
    requires i < |s| && (delta == 1 || delta == -1)
    ensures Manhattan(s, Move(s, i, delta)) == 1
  {
    var t := Move(s, i, delta);
    assert UnitApart(s, t) by {
      assert Abs(t[i] - s[i]) == 1;
    }
    ManhattanOneIffUnitApart(s, t);
  }

  /** `Arrays.equals(int[], int[])`: equal lengths and equal elements, compared front to back. */
  function SameInts(a: seq<int>, b: seq<int>): (r: bool)
    ensures r <==> a == b
    decreases |a|
  {
    if |a| != |b| then false
    else if |a| == 0 then true
    else
      assert a == [a[0]] + a[1..] && b == [b[0]] + b[1..];
      a[0] == b[0] && SameInts(a[1..], b[1..])
  }

  /** `Arrays.hashCode(int[])`: starting from 1, each element e turns h into 31*h + e, in int arithmetic. */
  function ArraysHash(s: seq<int>): (h: int)
    ensures IsInt32(h)
    decreases |s|
  {
    if |s| == 0 then 1 else Wrap(31 * ArraysHash(s[..|s| - 1]) + s[|s| - 1])
  }
}

=== FILE: priority_queue.dfy ===
/**
 * The array-backed binary min-heap of the planning package
 * (trunk/src/robotutils/planning/PriorityQueue.java).
 *
 * The queue's `Vector` is a `seq<int>`; slot 0 is the root and the children of
 * slot i are 2i+1 and 2i+2. The Java class is generic over a comparator; the
 * model fixes the element type to `int` under its natural order, which is also
 * the equality `delete` uses to find an element. Every operation returns the
 * new contents of the vector instead of mutating it.
 */
module PriorityQueue {
  import opened Wrappers

  /** Parent slot, computed as the Java does: ((i+1)/2)-1. */
  function Parent(i: nat): int {
    (i + 1) / 2 - 1
  }

  lemma ParentFacts(k: nat)
    requires k > 0
    ensures 0 <= Parent(k) < k
    ensures k == 2 * Parent(k) + 1 || k == 2 * Parent(k) + 2
  {
  }

  /** Slot k lies in the subtree rooted at slot root. */
  ghost predicate InSubtree(k: nat, root: nat)
    decreases k
  {
    k == root || (k > root && InSubtree(Parent(k), root))
  }

  /** Heap order: no slot holds less than its parent. */
  ghost predicate IsHeap(q: seq<int>) {
    forall k :: 0 < k < |q| ==> q[Parent(k)] <= q[k]
  }

  /** Heap order on every edge leaving a slot strictly below i: the subtrees of i's children are heaps. */
  ghost predicate HeapBelow(q: seq<int>, i: nat) {
    forall k :: 0 < k < |q| && Parent(k) > i ==> q[Parent(k)] <= q[k]
  }

  /** Heap order on every edge leaving slot i or a slot after it. */
  ghost predicate HeapFrom(q: seq<int>, i: nat) {
    forall k :: 0 < k < |q| && Parent(k) >= i ==> q[Parent(k)] <= q[k]
  }

  function Size(q: seq<int>): nat {
    |q|
  }

  predicate Empty(q: seq<int>) {
    |q| == 0
  }

  /** In a heap the root is a least element. */
  lemma {:induction false} RootIsMinimum(q: seq<int>, k: nat)
    requires IsHeap(q)
    requires k < |q|
    ensures q[0] <= q[k]
    decreases k
  {
    if k > 0 {
      ParentFacts(k);
      RootIsMinimum(q, Parent(k));
    }
  }

  /** Exchanges slots i and j; nothing else moves. */
  function Swap(q: seq<int>, i: nat, j: nat): (r: seq<int>)
    requires i < |q| && j < |q|
    ensures |r| == |q|
    ensures r[i] == q[j] && r[j] == q[i]
    ensures forall k :: 0 <= k < |q| && k != i && k != j ==> r[k] == q[k]
    ensures multiset(r) == multiset(q)
  {
    var tmp := q[i];
    q[i := q[j]][j := tmp]
  }

  /**
   * Slot a hole at i would be filled from while sifting x up: every edge not
   * entering the hole is ordered, x fits below the hole's children, and the
   * hole's parent is no larger than those children.
   */
  ghost predicate HoleOk(a: seq<int>, i: nat, x: int)
    requires i < |a|
  {
    && (forall k :: 0 < k < |a| && k != i ==> a[Parent(k)] <= a[k])
    && (forall k :: 0 < k < |a| && Parent(k) == i ==> x <= a[k])
    && (i > 0 ==> forall k :: 0 < k < |a| && Parent(k) == i ==> a[Parent(i)] <= a[k])
  }

  /**
   * The sift-up loop of `put`: while the hole has a parent strictly greater
   * than x, the parent moves down into the hole; x then fills the hole.
   */
  function SiftUp(a: seq<int>, i: nat, x: int): (r: seq<int>)
    requires i < |a|
    ensures |r| == |a|
    ensures multiset(r) == multiset(a[i := x])
    ensures HoleOk(a, i, x) ==> IsHeap(r)
    decreases i
  {
    if i > 0 && a[Parent(i)] > x then
      var p := Parent(i);
      var a' := a[i := a[p]];
      assert multiset(a'[p := x]) == multiset(a[i := x]) by {
        assert a'[p := x] == a[i := x][p := a[p]][i := a[p]][p := x];
      }
      MoveHoleUp(a, i, x);
      SiftUp(a', p, x)
    else
      a[i := x]
  }

  lemma MoveHoleUp(a: seq<int>, i: nat, x: int)
    requires 0 < i < |a|
    requires a[Parent(i)] > x
    ensures HoleOk(a, i, x) ==> HoleOk(a[i := a[Parent(i)]], Parent(i), x)
  {
    var p := Parent(i);
    var a' := a[i := a[p]];
    ParentFacts(i);
    if HoleOk(a, i, x) {
      forall k | 0 < k < |a'| && k != p
        ensures a'[Parent(k)] <= a'[k]
      {
        ParentFacts(k);
      }
      forall k | 0 < k < |a'| && Parent(k) == p
        ensures x <= a'[k]
      {
        ParentFacts(k);
      }
      if p > 0 {
        ParentFacts(p);
        forall k | 0 < k < |a'| && Parent(k) == p
          ensures a'[Parent(p)] <= a'[k]
        {
          ParentFacts(k);
        }
      }
    }
  }

  /** Index of the least of slot i and its children, choosing as `heapify` does. */
  function Smallest(q: seq<int>, i: nat): (s: nat)
    requires i < |q|
    ensures s < |q|
    ensures s == i || Parent(s) == i
    ensures q[s] <= q[i]
    ensures forall k :: 0 < k < |q| && Parent(k) == i ==> q[s] <= q[k]
  {
    var r := 2 * (i + 1);
    var l := r - 1;
    var s1 := if r < |q| && q[r] < q[i] then r else i;
    if l < |q| && q[l] < q[s1] then l else s1
  }

  /**
   * `heapify(i)`: sift the element at slot i down, swapping it with the
   * smaller child until neither child is smaller.
   */
  function Heapify(a: seq<int>, i: nat): (r: seq<int>)
    ensures |r| == |a|
    ensures multiset(r) == multiset(a)
    ensures forall k :: 0 <= k < |a| && !InSubtree(k, i) ==> r[k] == a[k]
    ensures i < |a| ==> r[i] == a[Smallest(a, i)]
    ensures HeapBelow(a, i) ==> HeapFrom(r, i)
    decreases |a| - i
  {
    if i >= |a| then a
    else
      var s := Smallest(a, i);
      if s != i then
        var a' := Swap(a, i, s);
        var r := Heapify(a', s);
        SiftDownStep(a, i, s, r);
        r
      else
        a
  }

  lemma SiftDownStep(a: seq<int>, i: nat, s: nat, r: seq<int>)
    requires i < |a| && s == Smallest(a, i) && s != i
    requires |r| == |a|
    requires forall k :: 0 <= k < |a| && !InSubtree(k, s) ==> r[k] == Swap(a, i, s)[k]
    requires r[s] == Swap(a, i, s)[Smallest(Swap(a, i, s), s)]
    requires HeapBelow(Swap(a, i, s), s) ==> HeapFrom(r, s)
    ensures forall k :: 0 <= k < |a| && !InSubtree(k, i) ==> r[k] == a[k]
    ensures r[i] == a[s]
    ensures HeapBelow(a, i) ==> HeapFrom(r, i)
  {
    var a' := Swap(a, i, s);
    ParentFacts(s);
    forall k | 0 <= k < |a| && !InSubtree(k, i)
      ensures r[k] == a[k]
    {
      NotInSubtreeOfChild(k, i, s);
    }
    assert !InSubtree(i, s);
    if HeapBelow(a, i) {
      SwapKeepsHeapBelow(a, i, s);
      forall k | 0 < k < |r| && Parent(k) >= i
        ensures r[Parent(k)] <= r[k]
      {
        SiftDownEdge(a, i, s, r, k);
      }
    }
  }

  lemma SwapKeepsHeapBelow(a: seq<int>, i: nat, s: nat)
    requires i < |a| && s == Smallest(a, i) && s != i
    requires HeapBelow(a, i)
    ensures HeapBelow(Swap(a, i, s), s)
  {
    var a' := Swap(a, i, s);
    ParentFacts(s);
    forall k | 0 < k < |a'| && Parent(k) > s
      ensures a'[Parent(k)] <= a'[k]
    {
      ParentFacts(k);
    }
  }

  /** One edge of the subtree at i after the swap with s and the recursive sift-down at s. */
  lemma SiftDownEdge(a: seq<int>, i: nat, s: nat, r: seq<int>, k: nat)
    requires i < |a| && s == Smallest(a, i) && s != i
    requires |r| == |a|
    requires forall k :: 0 <= k < |a| && !InSubtree(k, s) ==> r[k] == Swap(a, i, s)[k]
    requires r[s] == Swap(a, i, s)[Smallest(Swap(a, i, s), s)]
    requires HeapFrom(r, s)
    requires HeapBelow(a, i)
    requires 0 < k < |r| && Parent(k) >= i
    ensures r[Parent(k)] <= r[k]
  {
    var a' := Swap(a, i, s);
    ParentFacts(k);
    ParentFacts(s);
    var p := Parent(k);
    if p >= s {
    } else if k == s {
      assert !InSubtree(i, s);
      var c := Smallest(a', s);
      if c != s {
        ParentFacts(c);
        assert a[s] <= a[c];
      }
    } else {
      SubtreeIsAbove(p, s);
      assert !InSubtree(k, s);
      assert r[k] == a'[k] && r[p] == a'[p];
      if p > i {
        assert a[p] <= a[k];
      }
    }
  }

  /** A slot outside the subtree of i is outside the subtree of i's child s. */
  lemma {:induction false} NotInSubtreeOfChild(k: nat, i: nat, s: nat)
    requires s > 0 && Parent(s) == i
    requires !InSubtree(k, i)
    ensures !InSubtree(k, s)
    decreases k
  {
    if k > s {
      ParentFacts(k);
      NotInSubtreeOfChild(Parent(k), i, s);
    }
  }

  /** Every slot of a subtree comes at or after its root. */
  lemma SubtreeIsAbove(k: nat, root: nat)
    ensures InSubtree(k, root) ==> k >= root
  {
  }

  /** Heap order on every edge inside the subtree at i except the edges leaving i: its children's subtrees are heaps. */
  ghost predicate ChildSubtreesAreHeaps(q: seq<int>, i: nat) {
    forall k :: 0 < k < |q| && Parent(k) != i && InSubtree(Parent(k), i) ==> q[Parent(k)] <= q[k]
  }

  /** Heap order on every edge inside the subtree at i. */
  ghost predicate SubtreeIsHeap(q: seq<int>, i: nat) {
    forall k :: 0 < k < |q| && InSubtree(Parent(k), i) ==> q[Parent(k)] <= q[k]
  }

  /** A child's subtree lies inside its parent's. */
  lemma SubtreeOfChild(k: nat, i: nat, s: nat)
    requires s > 0 && Parent(s) == i
    ensures InSubtree(k, s) ==> InSubtree(k, i)
  {
    if !InSubtree(k, i) {
      NotInSubtreeOfChild(k, i, s);
    }
  }

  /** The slot below a slot of the subtree at i is in that subtree too. */
  lemma ChildInSubtree(k: nat, i: nat)
    requires k > 0 && InSubtree(Parent(k), i)
    ensures InSubtree(k, i)
  {
    ParentFacts(k);
    SubtreeIsAbove(Parent(k), i);
  }

  /** a with every slot outside the subtree at i overwritten by 0. */
  ghost function OnlySubtree(a: seq<int>, i: nat): (b: seq<int>)
    ensures |b| == |a|
    ensures forall k :: 0 <= k < |a| ==> b[k] == if InSubtree(k, i) then a[k] else 0
  {
    seq(|a|, k requires 0 <= k < |a| => if InSubtree(k, i) then a[k] else 0)
  }

  lemma OnlySubtreeHeapBelow(a: seq<int>, i: nat)
    requires ChildSubtreesAreHeaps(a, i)
    ensures HeapBelow(OnlySubtree(a, i), i)
  {
    var b := OnlySubtree(a, i);
    forall k | 0 < k < |b| && Parent(k) > i
      ensures b[Parent(k)] <= b[k]
    {
      ParentFacts(k);
      if InSubtree(Parent(k), i) {
        ChildInSubtree(k, i);
      } else {
        assert !InSubtree(k, i);
      }
    }
  }

  /** Two vectors that agree on the subtree at i agree there. */
  ghost predicate AgreeOnSubtree(a: seq<int>, b: seq<int>, i: nat)
    requires |a| == |b|
  {
    forall k :: 0 <= k < |a| && InSubtree(k, i) ==> a[k] == b[k]
  }

  /** The choice of child to sift into reads only slot i and its children. */
  lemma SmallestFrame(a: seq<int>, b: seq<int>, i: nat)
    requires |a| == |b| && i < |a| && AgreeOnSubtree(a, b, i)
    ensures Smallest(a, i) == Smallest(b, i)
  {
    ParentFacts(2 * i + 1);
    ParentFacts(2 * i + 2);
    assert InSubtree(i, i) && InSubtree(2 * i + 1, i) && InSubtree(2 * i + 2, i);
  }

  /** Swapping i with its child s keeps agreement on the subtree at s. */
  lemma SwapFrame(a: seq<int>, b: seq<int>, i: nat, s: nat)
    requires |a| == |b| && i < |a| && s < |a| && s > 0 && Parent(s) == i
    requires AgreeOnSubtree(a, b, i)
    ensures AgreeOnSubtree(Swap(a, i, s), Swap(b, i, s), s)
  {
    assert InSubtree(i, i) && InSubtree(s, i);
    forall k | 0 <= k < |a| && InSubtree(k, s)
      ensures Swap(a, i, s)[k] == Swap(b, i, s)[k]
    {
      SubtreeOfChild(k, i, s);
    }
  }

  /** Sifting down from s keeps the slots of i's subtree outside s's subtree, so agreement spreads from s's subtree to i's. */
  lemma SiftFrame(a: seq<int>, b: seq<int>, i: nat, s: nat)
    requires |a| == |b| && i < |a| && s < |a| && s > 0 && Parent(s) == i
    requires AgreeOnSubtree(a, b, i)
    requires AgreeOnSubtree(Heapify(Swap(a, i, s), s), Heapify(Swap(b, i, s), s), s)
    ensures AgreeOnSubtree(Heapify(Swap(a, i, s), s), Heapify(Swap(b, i, s), s), i)
  {
    var a', b' := Swap(a, i, s), Swap(b, i, s);
    var ra, rb := Heapify(a', s), Heapify(b', s);
    assert InSubtree(s, i);
    forall k | 0 <= k < |a| && InSubtree(k, i)
      ensures ra[k] == rb[k]
    {
      if !InSubtree(k, s) {
        assert ra[k] == a'[k] && rb[k] == b'[k];
      }
    }
  }

  /** What `heapify(i)` leaves in the subtree at i depends only on what the subtree held. */
  lemma {:induction false} HeapifyFrame(a: seq<int>, b: seq<int>, i: nat)
    requires |a| == |b| && AgreeOnSubtree(a, b, i)
    ensures AgreeOnSubtree(Heapify(a, i), Heapify(b, i), i)
    decreases |a| - i
  {
    if i < |a| {
      SmallestFrame(a, b, i);
      var s := Smallest(a, i);
      if s != i {
        ParentFacts(s);
        SwapFrame(a, b, i, s);
        HeapifyFrame(Swap(a, i, s), Swap(b, i, s), s);
        SiftFrame(a, b, i, s);
      }
    }
  }

  /**
   * `heapify(i)` needs only the subtrees of i's children to be heaps, and
   * leaves the whole subtree at i a heap, whatever the rest of the vector holds.
   */
  lemma HeapifyRestoresSubtree(a: seq<int>, i: nat)
    requires ChildSubtreesAreHeaps(a, i)
    ensures SubtreeIsHeap(Heapify(a, i), i)
  {
    var b := OnlySubtree(a, i);
    OnlySubtreeHeapBelow(a, i);
    HeapifyFrame(a, b, i);
    var r, rb := Heapify(a, i), Heapify(b, i);
    forall k | 0 < k < |r| && InSubtree(Parent(k), i)
      ensures r[Parent(k)] <= r[k]
    {
      ParentFacts(k);
      SubtreeIsAbove(Parent(k), i);
      ChildInSubtree(k, i);
      assert rb[Parent(k)] <= rb[k];
    }
  }

  /** `put(x)`: grow the vector by one and sift x up from the new last slot. */
  function Put(q: seq<int>, x: int): (r: seq<int>)
    ensures Size(r) == Size(q) + 1
    ensures multiset(r) == multiset(q) + multiset{x}
    ensures IsHeap(q) ==> IsHeap(r)
  {
    var a := q + [x];
    assert a[|q| := x] == a;
    assert IsHeap(q) ==> HoleOk(a, |q|, x) by {
      if IsHeap(q) {
        forall k | 0 < k < |a|
          ensures Parent(k) < |q|
        {
          ParentFacts(k);
        }
      }
    }
    SiftUp(a, |q|, x)
  }

  /** `getMin()`: slot 0, or null on an empty queue. */
  function GetMin(q: seq<int>): (m: Option<int>)
    ensures m.None? <==> Empty(q)
    ensures m.Some? ==> m.value in q
    ensures m.Some? ==> |q| > 0 && m.value == q[0]
    ensures m.Some? && IsHeap(q) ==> forall y :: y in q ==> m.value <= y
  {
    if Empty(q) then None
    else
      assert IsHeap(q) ==> forall y :: y in q ==> q[0] <= y by {
        if IsHeap(q) {
          forall y | y in q
            ensures q[0] <= y
          {
            var k :| 0 <= k < |q| && q[k] == y;
            RootIsMinimum(q, k);
          }
        }
      }
      Some(q[0])
  }

  /**
   * `deleteElement(i)` as written: the last element moves into slot i, the
   * vector shrinks by one, and the moved element is only sifted down.
   */
  function DeleteElement(q: seq<int>, i: nat): (r: seq<int>)
    requires i < |q|
    ensures |r| == |q| - 1
    ensures multiset(r) == multiset(q) - multiset{q[i]}
    ensures forall k :: 0 <= k < |r| && !InSubtree(k, i) ==> r[k] == q[k]
    ensures IsHeap(q) ==> HeapFrom(r, i)
  {
    var a := MoveLastInto(q, i);
    Heapify(a, i)
  }

  /** The vector after the last element overwrites slot i and the last slot is dropped. */
  function MoveLastInto(q: seq<int>, i: nat): (a: seq<int>)
    requires i < |q|
    ensures |a| == |q| - 1
    ensures multiset(a) == multiset(q) - multiset{q[i]}
    ensures forall k :: 0 <= k < |a| && k != i ==> a[k] == q[k]
    ensures i < |a| ==> a[i] == q[|q| - 1]
    ensures IsHeap(q) ==> HeapBelow(a, i)
  {
    var a := q[i := q[|q| - 1]][..|q| - 1];
    MoveLastIntoMultiset(q, i);
    MoveLastIntoOrder(q, i);
    a
  }

  lemma MoveLastIntoMultiset(q: seq<int>, i: nat)
    requires i < |q|
    ensures multiset(q[i := q[|q| - 1]][..|q| - 1]) == multiset(q) - multiset{q[i]}
  {
    var last := |q| - 1;
    var a := q[i := q[last]][..last];
    assert q == q[..last] + [q[last]];
    if i < last {
      assert a == q[..last][i := q[last]];
    } else {
      assert a == q[..last];
    }
  }

  lemma MoveLastIntoOrder(q: seq<int>, i: nat)
    requires i < |q|
    ensures IsHeap(q) ==> HeapBelow(q[i := q[|q| - 1]][..|q| - 1], i)
  {
    var a := q[i := q[|q| - 1]][..|q| - 1];
    if IsHeap(q) {
      forall k | 0 < k < |a| && Parent(k) > i
        ensures a[Parent(k)] <= a[k]
      {
        ParentFacts(k);
      }
    }
  }

  /** `deleteMin()`: null and no change on an empty queue, else slot 0 is removed and returned. */
  function DeleteMin(q: seq<int>): (res: (Option<int>, seq<int>))
    ensures res.0 == GetMin(q)
    ensures !Empty(q) ==> res.0 == Some(q[0])
    ensures Empty(q) ==> res.1 == q
    ensures !Empty(q) ==> Size(res.1) == Size(q) - 1
    ensures !Empty(q) ==> multiset(res.1) == multiset(q) - multiset{q[0]}
    ensures IsHeap(q) ==> IsHeap(res.1)
  {
    if Empty(q) then (None, q)
    else
      var r := DeleteElement(q, 0);
      assert IsHeap(q) ==> IsHeap(r) by {
        if IsHeap(q) {
          forall k | 0 < k < |r|
            ensures r[Parent(k)] <= r[k]
          {
            ParentFacts(k);
          }
        }
      }
      (Some(q[0]), r)
  }

  /** The scan of `Vector.indexOf(x)` from slot `from` on: the first slot at or after it holding x, or -1. */
  function IndexFrom(q: seq<int>, x: int, from: nat): (i: int)
    requires from <= |q|
    ensures i == -1 || from <= i < |q|
    ensures i == -1 <==> forall k :: from <= k < |q| ==> q[k] != x
    ensures i >= 0 ==> q[i] == x && forall k :: from <= k < i ==> q[k] != x
    decreases |q| - from
  {
    if from == |q| then -1
    else if q[from] == x then from
    else IndexFrom(q, x, from + 1)
  }

  /** `Vector.indexOf(x)`: the first slot holding x, or -1. */
  function IndexOf(q: seq<int>, x: int): (i: int)
    ensures -1 <= i < |q|
    ensures i == -1 <==> x !in q
    ensures 0 <= i < |q| ==> q[i] == x && forall k :: 0 <= k < i ==> q[k] != x
  {
    IndexFrom(q, x, 0)
  }

  /** `delete(x)`: removes one occurrence of x and reports whether there was one. */
  function Delete(q: seq<int>, x: int): (res: (bool, seq<int>))
    ensures res.0 <==> x in q
    ensures !res.0 ==> res.1 == q
    ensures res.0 ==> multiset(res.1) == multiset(q) - multiset{x}
    ensures res.0 ==> Size(res.1) == Size(q) - 1
  {
    var i := IndexOf(q, x);
    if i == -1 then (false, q)
    else (true, DeleteElement(q, i))
  }

  /** `clear()`: the queue becomes empty, so nothing is left to return. */
  function Clear(q: seq<int>): (r: seq<int>)
    ensures Empty(r)
    ensures GetMin(r).None?
  {
    []
  }

  /** The loop of `update()`: `heapify(i)` for i from the given slot down to 0. */
  function RebuildFrom(q: seq<int>, i: int): (r: seq<int>)
    requires i >= -1
    ensures |r| == |q|
    ensures multiset(r) == multiset(q)
    ensures (i == -1 ==> r == q)
    ensures HeapBelow(q, if i < 0 then 0 else i) && (i >= 0 || IsHeap(q)) ==> IsHeap(r)
    decreases i + 1
  {
    if i < 0 then q
    else
      var a := Heapify(q, i);
      assert HeapBelow(q, i) ==> (if i - 1 < 0 then IsHeap(a) else HeapBelow(a, i - 1)) by {
        if HeapBelow(q, i) {
          if i == 0 {
            forall k | 0 < k < |a|
              ensures a[Parent(k)] <= a[k]
            {
              ParentFacts(k);
            }
          }
        }
      }
      RebuildFrom(a, i - 1)
  }

  /**
   * `update()`: rebuild heap order bottom-up after priorities changed,
   * whatever order the vector was in.
   */
  function Update(q: seq<int>): (r: seq<int>)
    ensures |r| == |q|
    ensures multiset(r) == multiset(q)
    ensures IsHeap(r)
  {
    var start := |q| / 2 - 1;
    if start < 0 then
      q
    else
      assert HeapBelow(q, start) by {
        forall k | 0 < k < |q|
          ensures Parent(k) <= start
        {
          ParentFacts(k);
        }
      }
      RebuildFrom(q, start)
  }

  /*
   * Heap order after `delete(x)`. `deleteElement` moves the last element into
   * the vacated slot and only sifts it down; when that element is smaller than
   * the slot's parent, the parent edge is left out of order.
   */

  /** Deleting 6 from the heap [0, 5, 1, 6, 7, 2] leaves 2 below 5. */
  lemma DeleteBreaksHeapOrder()
    ensures IsHeap([0, 5, 1, 6, 7, 2])
    ensures Delete([0, 5, 1, 6, 7, 2], 6) == (true, [0, 5, 1, 2, 7])
    ensures !IsHeap([0, 5, 1, 2, 7])
  {
    var q := [0, 5, 1, 6, 7, 2];
    ExampleIsHeap();
    ExampleIndexOf();
    ExampleDeleteElement(q);
    ExampleNotHeap([0, 5, 1, 2, 7]);
  }

  lemma ExampleDeleteElement(q: seq<int>)
    requires q == [0, 5, 1, 6, 7, 2]
    ensures DeleteElement(q, 3) == [0, 5, 1, 2, 7]
  {
    var a := MoveLastInto(q, 3);
    assert a == [0, 5, 1, 2, 7];
    ExampleHeapifyStops(a);
  }

  lemma ExampleNotHeap(a: seq<int>)
    requires a == [0, 5, 1, 2, 7]
    ensures !IsHeap(a)
  {
    assert Parent(3) == 1;
    assert a[Parent(3)] > a[3];
  }

  lemma ExampleIsHeap()
    ensures IsHeap([0, 5, 1, 6, 7, 2])
  {
    var q := [0, 5, 1, 6, 7, 2];
    forall k | 0 < k < |q|
      ensures q[Parent(k)] <= q[k]
    {
      ParentFacts(k);
    }
  }

  lemma ExampleIndexOf()
    ensures IndexOf([0, 5, 1, 6, 7, 2], 6) == 3
  {
    var q := [0, 5, 1, 6, 7, 2];
    assert q[3] == 6;
  }

  lemma ExampleHeapifyStops(a: seq<int>)
    requires a == [0, 5, 1, 2, 7]
    ensures Heapify(a, 3) == a
  {
    var s := Smallest(a, 3);
    if s != 3 {
      ParentFacts(s);
    }
  }

  /**
   * `deleteElement(i)` with the missing sift-up: when the element moved into
   * slot i is smaller than i's parent it is sifted up, otherwise down.
   */
  function DeleteElementFixed(q: seq<int>, i: nat): (r: seq<int>)
    requires i < |q|
    ensures |r| == |q| - 1
    ensures multiset(r) == multiset(q) - multiset{q[i]}
    ensures IsHeap(q) ==> IsHeap(r)
  {
    var last := |q| - 1;
    var a := MoveLastInto(q, i);
    if i == last then
      assert IsHeap(q) ==> IsHeap(a) by {
        if IsHeap(q) {
          forall k | 0 < k < |a|
            ensures a[Parent(k)] <= a[k]
          {
            ParentFacts(k);
          }
        }
      }
      a
    else if i > 0 && q[last] < q[Parent(i)] then
      assert q[..last][i := q[last]] == a;
      FixedSiftUpPrecondition(q, i);
      SiftUp(q[..last], i, q[last])
    else
      var r := Heapify(a, i);
      FixedSiftDownKeepsHeap(q, i, r);
      r
  }

  lemma FixedSiftUpPrecondition(q: seq<int>, i: nat)
    requires 0 < i < |q| - 1
    requires q[|q| - 1] < q[Parent(i)]
    ensures IsHeap(q) ==> HoleOk(q[..|q| - 1], i, q[|q| - 1])
  {
    var a := q[..|q| - 1];
    ParentFacts(i);
    if IsHeap(q) {
      forall k | 0 < k < |a| && Parent(k) == i
        ensures q[|q| - 1] <= a[k] && a[Parent(i)] <= a[k]
      {
        ParentFacts(k);
        assert q[i] <= q[k];
      }
      forall k | 0 < k < |a| && k != i
        ensures a[Parent(k)] <= a[k]
      {
        ParentFacts(k);
      }
    }
  }

  lemma FixedSiftDownKeepsHeap(q: seq<int>, i: nat, r: seq<int>)
    requires i < |q| - 1
    requires !(i > 0 && q[|q| - 1] < q[Parent(i)])
    requires r == Heapify(MoveLastInto(q, i), i)
    ensures IsHeap(q) ==> IsHeap(r)
  {
    var a := MoveLastInto(q, i);
    if IsHeap(q) {
      forall k | 0 < k < |r|
        ensures r[Parent(k)] <= r[k]
      {
        ParentFacts(k);
        var p := Parent(k);
        if p < i {
          SubtreeIsAbove(p, i);
          if k == i {
            var c := Smallest(a, i);
            if c != i {
              ParentFacts(c);
              HeapEdge(q, p, i);
            }
          } else {
            assert !InSubtree(k, i);
          }
        }
      }
    }
  }

  /** In a heap a slot is no larger than its child. */
  lemma HeapEdge(q: seq<int>, p: nat, i: nat)
    requires IsHeap(q)
    requires 0 < i < |q| && p == Parent(i)
    ensures q[p] <= q[i]
  {
  }

  /** `delete(x)` built on the corrected `deleteElement`. */
  function DeleteFixed(q: seq<int>, x: int): (res: (bool, seq<int>))
    ensures res.0 <==> x in q
    ensures !res.0 ==> res.1 == q
    ensures res.0 ==> multiset(res.1) == multiset(q) - multiset{x}
    ensures IsHeap(q) ==> IsHeap(res.1)
  {
    var i := IndexOf(q, x);
    if i == -1 then (false, q)
    else (true, DeleteElementFixed(q, i))
  }

  /** The same deletion keeps heap order once the sift-up is in place. */
  lemma DeleteFixedKeepsHeapOrder()
    ensures DeleteFixed([0, 5, 1, 6, 7, 2], 6) == (true, [0, 2, 1, 5, 7])
  {
    var q := [0, 5, 1, 6, 7, 2];
    ExampleIndexOf();
    var a := q[..5];
    assert a == [0, 5, 1, 6, 7];
    ExampleSiftUp(a);
  }

  /** One round of the sift-up loop: the greater parent moves down into the hole. */
  lemma SiftUpMoves(a: seq<int>, i: nat, x: int)
    requires 0 < i < |a| && a[Parent(i)] > x
    ensures SiftUp(a, i, x) == SiftUp(a[i := a[Parent(i)]], Parent(i), x)
  {
  }

  /** The sift-up loop stops at the root or below a parent no greater than x. */
  lemma SiftUpStops(a: seq<int>, i: nat, x: int)
    requires i < |a| && !(i > 0 && a[Parent(i)] > x)
    ensures SiftUp(a, i, x) == a[i := x]
  {
  }

  lemma ExampleSiftUp(a: seq<int>)
    requires a == [0, 5, 1, 6, 7]
    ensures SiftUp(a, 3, 2) == [0, 2, 1, 5, 7]
  {
    assert Parent(3) == 1 && Parent(1) == 0;
    SiftUpMoves(a, 3, 2);
    var b := a[3 := 5];
    SiftUpStops(b, 1, 2);
    assert b[1 := 2] == [0, 2, 1, 5, 7];
  }

  /*
   * Draining the queue with `deleteMin`, as the queue's tests do after
   * inserting a shuffled 0..99.
   */

  ghost predicate Sorted(s: seq<int>) {
    forall i, j :: 0 <= i < j < |s| ==> s[i] <= s[j]
  }

  /** `put` every element of xs, in order, into an empty queue. */
  function PutAll(xs: seq<int>): (q: seq<int>)
    ensures IsHeap(q)
    ensures multiset(q) == multiset(xs)
  {
    if xs == [] then []
    else
      assert xs == xs[..|xs| - 1] + [xs[|xs| - 1]];
      Put(PutAll(xs[..|xs| - 1]), xs[|xs| - 1])
  }

  /** `deleteMin` until the queue is empty, collecting what it returns. */
  function Drain(q: seq<int>): (out: seq<int>)
    ensures multiset(out) == multiset(q)
    ensures IsHeap(q) ==> Sorted(out)
    decreases |q|
  {
    var (m, rest) := DeleteMin(q);
    if m.None? then []
    else
      var tail := Drain(rest);
      DrainStep(q, m.value, rest, tail);
      [m.value] + tail
  }

  lemma DrainStep(q: seq<int>, m: int, rest: seq<int>, tail: seq<int>)
    requires |q| > 0 && DeleteMin(q) == (Some(m), rest)
    requires multiset(tail) == multiset(rest)
    requires IsHeap(rest) ==> Sorted(tail)
    ensures multiset([m] + tail) == multiset(q)
    ensures IsHeap(q) ==> Sorted([m] + tail)
  {
    assert GetMin(q) == Some(m);
    assert multiset(rest) == multiset(q) - multiset{m};
    assert m in multiset(q);
    if IsHeap(q) {
      assert IsHeap(rest);
      DrainHeadIsLeast(q, m, tail);
      SortedCons(m, tail);
    }
  }

  lemma DrainHeadIsLeast(q: seq<int>, m: int, tail: seq<int>)
    requires forall y :: y in q ==> m <= y
    requires multiset(tail) <= multiset(q)
    ensures forall y :: y in tail ==> m <= y
  {
    forall y | y in tail
      ensures m <= y
    {
      assert y in multiset(tail);
      assert y in multiset(q);
      assert y in q;
    }
  }

  lemma SortedCons(m: int, tail: seq<int>)
    requires Sorted(tail)
    requires forall y :: y in tail ==> m <= y
    ensures Sorted([m] + tail)
  {
    var s := [m] + tail;
    forall i, j | 0 <= i < j < |s|
      ensures s[i] <= s[j]
    {
      if i == 0 {
        assert s[j] == tail[j - 1];
        assert s[j] in tail;
      }
    }
  }

  /** Two sorted sequences with the same elements are equal. */
  lemma {:induction false} SortedUnique(a: seq<int>, b: seq<int>)
    requires Sorted(a) && Sorted(b)
    requires multiset(a) == multiset(b)
    ensures a == b
    decreases |a|
  {
    assert |a| == |multiset(a)| == |multiset(b)| == |b|;
    if |a| > 0 {
      SameHead(a, b);
      var a', b' := a[1..], b[1..];
      assert a == [a[0]] + a' && b == [b[0]] + b';
      assert multiset(a') == multiset(b') by {
        assert multiset(a) == multiset{a[0]} + multiset(a');
        assert multiset(b) == multiset{a[0]} + multiset(b');
        forall x
          ensures multiset(a')[x] == multiset(b')[x]
        {
          assert multiset(a)[x] == multiset(b)[x];
        }
      }
      SortedUnique(a', b');
    }
  }

  lemma SameHead(a: seq<int>, b: seq<int>)
    requires Sorted(a) && Sorted(b)
    requires multiset(a) == multiset(b)
    requires |a| > 0 && |b| > 0
    ensures a[0] == b[0]
  {
    assert a[0] in multiset(b) && b[0] in multiset(a);
    var i :| 0 <= i < |b| && b[i] == a[0];
    var j :| 0 <= j < |a| && a[j] == b[0];
    assert b[0] <= b[i];
    assert a[0] <= a[j];
  }

  /** The integers lo, lo+1, ..., hi-1. */
  function Range(lo: int, hi: int): (s: seq<int>)
    ensures |s| == if lo < hi then hi - lo else 0
    ensures forall k :: 0 <= k < |s| ==> s[k] == lo + k
    decreases hi - lo
  {
    if lo < hi then [lo] + Range(lo + 1, hi) else []
  }

  /** Inserting a permutation of 0..n-1 and polling repeatedly yields 0..n-1 in order. */
  lemma PutAllThenDrainIsAscending(xs: seq<int>, n: nat)
    requires multiset(xs) == multiset(Range(0, n))
    ensures Drain(PutAll(xs)) == Range(0, n)
  {
    SortedUnique(Drain(PutAll(xs)), Range(0, n));
  }
}

=== FILE: static_map.dfy ===
/**
 * The dense N-dimensional occupancy grid
 * (src/robotutils/filters/occupancy/StaticMap.java): one byte per cell in a
 * flat array, addressed through per-dimension strides.
 */
module StaticMap {
  import opened Wrappers
  import opened Lattice

  /** Product of all entries; 1 for the empty sequence. */
  function Prod(s: seq<int>): int
    decreases |s|
  {
    if |s| == 0 then 1 else Prod(s[..|s| - 1]) * s[|s| - 1]
  }

  /**
   * The fields of a resized map: the cell array, a copy of the dimensions and
   * the stride table `cumDims`, which has one slot more than there are
   * dimensions (the last is never written and stays 0).
   */
  datatype StaticMap = StaticMap(cells: seq<Byte>, dims: seq<int>, cumDims: seq<int>)

  /** The state `resize` leaves behind: strides are prefix products, one cell per coordinate. */
  ghost predicate Valid(m: StaticMap) {
    && |m.dims| > 0
    && |m.cumDims| == |m.dims| + 1
    && (forall i :: 0 <= i < |m.dims| ==> m.cumDims[i] == Prod(m.dims[..i]))
    && m.cumDims[|m.dims|] == 0
    && |m.cells| == Prod(m.dims)
  }

  /**
   * The stride loop of `resize`: slot 0 is 1 and slot i is slot i-1 times
   * dimension i-1, for the first n slots.
   */
  function Strides(dims: seq<int>, n: nat): (c: seq<int>)
    requires n <= |dims|
    ensures |c| == n
    ensures forall i :: 0 <= i < n ==> c[i] == Prod(dims[..i])
  {
    if n == 0 then []
    else if n == 1 then
      assert dims[..0] == [];
      [1]
    else
      var c := Strides(dims, n - 1);
      assert dims[..n - 1][..n - 2] == dims[..n - 2];
      c + [c[n - 2] * dims[n - 2]]
  }

  /**
   * `resize(dims)`. With no dimensions the allocation reads `cumDims[-1]` and
   * throws; a negative cell count throws on allocation. Otherwise every cell is 0.
   */
  function Resize(dims: seq<int>): (r: Result<StaticMap>)
    ensures |dims| == 0 ==> r == Failure(IndexOutOfBounds)
    ensures |dims| > 0 && Prod(dims) < 0 ==> r == Failure(NegativeArraySize)
    ensures r.Success? <==> |dims| > 0 && Prod(dims) >= 0
    ensures r.Success? ==> Valid(r.value) && r.value.dims == dims
    ensures r.Success? ==> forall c :: c in r.value.cells ==> c == 0
  {
    if |dims| == 0 then Failure(IndexOutOfBounds)
    else
      var n := |dims|;
      var cumDims := Strides(dims, n) + [0];
      var count := cumDims[n - 1] * dims[n - 1];
      assert dims[..n] == dims;
      assert dims[..n - 1] == dims[..|dims| - 1];
      if count < 0 then Failure(NegativeArraySize)
      else Success(StaticMap(seq(count, _ => 0), dims, cumDims))
  }

  /** Coordinate k of idx lies inside dimension k. */
  predicate CoordOk(dims: seq<int>, idx: seq<int>, k: nat)
    requires k < |dims| && k < |idx|
  {
    0 <= idx[k] < dims[k]
  }

  /** Every coordinate idx supplies is in range, but it supplies fewer than there are dimensions. */
  ghost predicate TooShort(dims: seq<int>, idx: seq<int>) {
    |idx| < |dims| && forall k :: 0 <= k < |idx| ==> CoordOk(dims, idx, k)
  }

  /** Some coordinate is negative or at least its dimension. */
  ghost predicate OutOfRange(dims: seq<int>, idx: seq<int>) {
    exists k :: 0 <= k < |dims| && k < |idx| && !CoordOk(dims, idx, k)
  }

  /** idx names a cell: one in-range coordinate per dimension (extra ones are ignored). */
  ghost predicate InBounds(dims: seq<int>, idx: seq<int>) {
    |idx| >= |dims| && forall k :: 0 <= k < |dims| ==> CoordOk(dims, idx, k)
  }

  /** Mixed-radix offset of the first n coordinates: the sum of Prod(dims[..k]) * idx[k]. */
  ghost function Offset(dims: seq<int>, idx: seq<int>, n: nat): int
    requires n <= |dims| && n <= |idx|
  {
    if n == 0 then 0 else Offset(dims, idx, n - 1) + Prod(dims[..n - 1]) * idx[n - 1]
  }

  /** The loop of `index`, from dimension i on with the partial sum acc. */
  function IndexFrom(m: StaticMap, idx: seq<int>, i: nat, acc: int): (r: Result<int>)
    requires Valid(m)
    requires i <= |m.dims| && i <= |idx|
    requires forall k :: 0 <= k < i ==> CoordOk(m.dims, idx, k)
    requires acc == Offset(m.dims, idx, i)
    ensures r.Failure? <==> TooShort(m.dims, idx)
    ensures r.Failure? ==> r.fault == IndexOutOfBounds
    ensures r == Success(-1) <==> OutOfRange(m.dims, idx)
    ensures InBounds(m.dims, idx) ==> r == Success(Offset(m.dims, idx, |m.dims|))
    decreases |m.dims| - i
  {
    if i >= |m.dims| then
      OffsetBounds(m.dims, idx, i);
      Success(acc)
    else if i >= |idx| then Failure(IndexOutOfBounds)
    else if idx[i] < 0 || idx[i] >= m.dims[i] then
      assert !CoordOk(m.dims, idx, i);
      Success(-1)
    else IndexFrom(m, idx, i + 1, acc + m.cumDims[i] * idx[i])
  }

  /**
   * `index(idx)`: the cell's position in the flat array, -1 when a coordinate
   * is out of range; too few coordinates throw.
   */
  function Index(m: StaticMap, idx: seq<int>): (r: Result<int>)
    requires Valid(m)
    ensures r.Failure? <==> TooShort(m.dims, idx)
    ensures r == Success(-1) <==> OutOfRange(m.dims, idx)
    ensures InBounds(m.dims, idx) ==> r == Success(Offset(m.dims, idx, |m.dims|))
    ensures InBounds(m.dims, idx) ==> 0 <= r.value < |m.cells|
  {
    var r := IndexFrom(m, idx, 0, 0);
    assert InBounds(m.dims, idx) ==> 0 <= r.value < |m.cells| by {
      if InBounds(m.dims, idx) {
        OffsetBounds(m.dims, idx, |m.dims|);
        assert m.dims[..|m.dims|] == m.dims;
      }
    }
    r
  }

  /** The offset of in-range coordinates is a valid position among Prod(dims[..n]) cells. */
  lemma {:induction false} OffsetBounds(dims: seq<int>, idx: seq<int>, n: nat)
    requires n <= |dims| && n <= |idx|
    requires forall k :: 0 <= k < n ==> CoordOk(dims, idx, k)
    ensures 0 <= Offset(dims, idx, n) < Prod(dims[..n])
  {
    if n > 0 {
      OffsetBounds(dims, idx, n - 1);
      var p := Prod(dims[..n - 1]);
      assert dims[..n][..n - 1] == dims[..n - 1];
      assert Prod(dims[..n]) == p * dims[n - 1];
      var x := idx[n - 1];
      assert CoordOk(dims, idx, n - 1);
      assert p * x + p == p * (x + 1) <= p * dims[n - 1] by {
        MulMonotone(p, x + 1, dims[n - 1]);
      }
    }
  }

  lemma MulMonotone(p: int, a: int, b: int)
    requires p >= 0 && a <= b
    ensures p * a <= p * b
  {
  }

  /** Distinct in-range coordinates have distinct offsets: the linearisation is injective. */
  lemma {:induction false} OffsetInjective(dims: seq<int>, a: seq<int>, b: seq<int>, n: nat)
    requires n <= |dims| && n <= |a| && n <= |b|
    requires forall k :: 0 <= k < n ==> CoordOk(dims, a, k) && CoordOk(dims, b, k)
    requires Offset(dims, a, n) == Offset(dims, b, n)
    ensures a[..n] == b[..n]
  {
    if n > 0 {
      var p := Prod(dims[..n - 1]);
      OffsetBounds(dims, a, n - 1);
      OffsetBounds(dims, b, n - 1);
      var x, y := a[n - 1], b[n - 1];
      if x < y {
        MulMonotone(p, x + 1, y);
        assert false;
      } else if y < x {
        MulMonotone(p, y + 1, x);
        assert false;
      }
      OffsetInjective(dims, a, b, n - 1);
      assert a[..n] == a[..n - 1] + [x] && b[..n] == b[..n - 1] + [y];
    }
  }

  /** `get(idx)`: the cell's byte, 0 for an out-of-range coordinate. */
  function Get(m: StaticMap, idx: seq<int>): (r: Result<Byte>)
    requires Valid(m)
    ensures r.Failure? <==> TooShort(m.dims, idx)
    ensures OutOfRange(m.dims, idx) ==> r == Success(0)
    ensures InBounds(m.dims, idx) ==>
      var i := Offset(m.dims, idx, |m.dims|); 0 <= i < |m.cells| && r == Success(m.cells[i])
  {
    var i :- Index(m, idx);
    if i < 0 then Success(0) else Success(m.cells[i])
  }

  /** `set(idx, val)`: writes the cell; an out-of-range coordinate changes nothing. */
  function Set(m: StaticMap, idx: seq<int>, val: Byte): (r: Result<StaticMap>)
    requires Valid(m)
    ensures r.Failure? <==> TooShort(m.dims, idx)
    ensures r.Success? ==> Valid(r.value) && r.value.dims == m.dims && r.value.cumDims == m.cumDims
    ensures OutOfRange(m.dims, idx) ==> r == Success(m)
  {
    var i :- Index(m, idx);
    if i < 0 then Success(m) else Success(m.(cells := m.cells[i := val]))
  }

  /** `size(d)`: the extent of dimension d. */
  function Size(m: StaticMap, d: int): (r: Result<int>)
    requires Valid(m)
    ensures r.Success? <==> 0 <= d < |m.dims|
    ensures r.Failure? ==> r.fault == IndexOutOfBounds
  {
    if 0 <= d < |m.dims| then Success(m.dims[d]) else Failure(IndexOutOfBounds)
  }

  /** After `set(idx, b)` on a cell, `get(idx)` returns b. */
  lemma GetAfterSet(m: StaticMap, idx: seq<int>, b: Byte)
    requires Valid(m) && InBounds(m.dims, idx)
    ensures Set(m, idx, b).Success?
    ensures Get(Set(m, idx, b).value, idx) == Success(b)
  {
    var i := Index(m, idx).value;
    assert Set(m, idx, b) == Success(m.(cells := m.cells[i := b]));
  }

  /** `set` on one cell leaves every other cell as it was. */
  lemma SetLeavesOtherCells(m: StaticMap, idx: seq<int>, b: Byte, other: seq<int>)
    requires Valid(m) && InBounds(m.dims, idx) && InBounds(m.dims, other)
    requires other[..|m.dims|] != idx[..|m.dims|]
    ensures Get(Set(m, idx, b).value, other) == Get(m, other)
  {
    var n := |m.dims|;
    var i := Index(m, idx).value;
    var j := Index(m, other).value;
    if i == j {
      OffsetInjective(m.dims, idx, other, n);
    }
    assert Set(m, idx, b) == Success(m.(cells := m.cells[i := b]));
  }

  /** `size(d)` of a resized map returns the d-th dimension it was given. */
  lemma SizeAfterResize(dims: seq<int>, d: int)
    requires Resize(dims).Success?
    requires 0 <= d < |dims|
    ensures Size(Resize(dims).value, d) == Success(dims[d])
  {
  }

  /** Resizing to 100 x 400 x 200 gives strides 1, 100, 40000 and 8,000,000 cells. */
  lemma ResizeExample()
    ensures Resize([100, 400, 200]).Success?
    ensures Resize([100, 400, 200]).value.cumDims == [1, 100, 40000, 0]
    ensures |Resize([100, 400, 200]).value.cells| == 8_000_000
  {
    var dims := [100, 400, 200];
    assert Prod(dims[..0]) == 1;
    assert dims[..1][..0] == dims[..0];
    assert Prod(dims[..1]) == 100;
    assert dims[..2][..1] == dims[..1];
    assert Prod(dims[..2]) == 40000;
    assert dims[..3][..2] == dims[..2];
    assert dims[..3] == dims;
    assert Prod(dims) == 8_000_000;
    var m := Resize(dims).value;
    assert m.cumDims[0] == 1 && m.cumDims[1] == 100 && m.cumDims[2] == 40000 && m.cumDims[3] == 0;
  }
}

=== FILE: wrappers.dfy ===
/** Failure-carrying results for the Java exceptions the modelled code can raise. */
module Wrappers {

  /** The unchecked exceptions the modelled classes throw. */
  datatype Fault =
    | IndexOutOfBounds      // ArrayIndexOutOfBoundsException / IndexOutOfBoundsException
    | NegativeArraySize     // NegativeArraySizeException
    | IllegalArgument       // IllegalArgumentException
    | NullPointer           // NullPointerException
    | NoTermination         // a loop that the Java code would never leave

  /** A Java reference that may be null. */
  datatype Option<+T> = None | Some(value: T)

  /** The outcome of a call: a returned value or a thrown exception. */
  datatype Result<+T> = Success(value: T) | Failure(fault: Fault) {
    predicate IsFailure() {
      Failure?
    }

    function PropagateFailure<U>(): Result<U>
      requires Failure?
    {
      Failure(fault)
    }

    function Extract(): T
      requires Success?
    {
      value
    }
  }
}
